=== FILE: README.md ===
# Instagram post video downloader, modelled in Dafny

The browser extension adds a download control to Instagram posts. A click
either opens the post's own page, with an `igdl=1` auto-download marker, or,
already on that page, looks for the post's MPEG-DASH manifest in the page's
JSON scripts. From the manifest it picks the best video and audio streams and
asks the background page to merge them. This project models the decision
logic of that path as pure functions over immutable data, plus small state
records for the parts that keep state:

- **Manifest selection** (`DashManifest`, `Entities`). A manifest is taken
  after tokenisation: adaptation sets holding their opening tag, their body
  text and their representations (bandwidth plus optional `BaseURL`).
  - Sets are classified as video and/or audio by the source's substring tests.
  - The selection is a left fold over the representations, in document order.
  - URLs are decoded by the five literal replacements, applied in order.
- **Manifest location** (`Json`, `ManifestLocator`). Parsed scripts are a JSON
  datatype.
  - The depth-bounded walk scores nodes whose `video_dash_manifest` parses.
  - `JSON.stringify(...).includes(...)` becomes a substring test on the
    serialised subtree.
  - The walk is proved equal to "the first best-scoring candidate in
    pre-order".
  - Across scripts, the first best-scoring match wins.
- **Post ids and click handling** (`PostIds`, `PostActions`). This covers:
  - the `/(p|reel)/<id>` capture, and the link precedence inside an article;
  - the carousel choice and click routing;
  - the retry schedule while the manifest loads, and the merge request the
    content script builds;
  - the once-only auto-download, and the guard in front of inserting a
    control.
- **Downloader registry** (`Registry`). This covers:
  - the static instance list and the observer's lifecycle;
  - the filter that ignores the extension's own DOM insertions;
  - the one-second debounce, over delivery times in milliseconds;
  - reinitialising the instances when the timer fires, with the registry,
    the timer and the page's changes combined into one reconciler driven by
    events: an instance created or removed, time passing, the page changing.
- **Background page** (`BackgroundDownload`, `MessageHandler`). This covers:
  - file names taken from media URLs, and the fallback between the two
    download methods;
  - the message router, whose only state is the tab that asked for a merge.
    Browser calls are inputs: what the offscreen document answers, and
    whether each call throws, the context lookup included.

The regular expressions are not modelled character by character. Their
results are inputs (the tokenised adaptation sets, the parsed duration) or
substring predicates. Durations are `real`. Whole seconds for the output
file name are given as a natural number.

Two facts about the code that the model states precisely:

- URL decoding applies `&amp;` first, so `&amp;lt;` decodes to `<`: an
  escaped entity text is decoded twice. `Entities.DoubleDecoding` shows this,
  and `Entities.RoundTripFailsOnEntityText` shows what it costs the round trip.
- A node is accepted when the post id matches exactly, **or** when its
  duration is within 0.1 s of the playing video.

Where a comment and the code differ, the model follows the code: the retry
schedule waits 25 s in all (1+2+3+4+5 s, then five waits of 2 s), while the
comment at src/ts/downloaders/PostDownloader.ts:47 says 20 s.

## Model

| member | source | states |
|---|---|---|
| `Text.ReplaceAll` | src/ts/downloaders/PostDownloader.ts:391-396 | a global literal replacement leaves a string without the pattern unchanged, never lengthens it when the replacement is shorter, and keeps a non-empty string non-empty |
| `Entities.DecodeWithoutAmpersand` | src/ts/downloaders/PostDownloader.ts:391-396 | a URL without '&' is left unchanged by the five replacements |
| `Entities.DecodeKeepsNonEmpty` | src/ts/downloaders/PostDownloader.ts:388-396 | a captured URL (at least one character) never decodes to the empty string, so the later truthiness test means "a URL was selected" |
| `Entities.DecodeNeverGrows` | src/ts/downloaders/PostDownloader.ts:391-396 | decoding never makes a URL longer |
| `Entities.DoubleDecoding` | src/ts/downloaders/PostDownloader.ts:391-393 | because `&amp;` is replaced first, `&amp;lt;` decodes to `<` |
| `Entities.DecodeUndoesEscape` | src/ts/downloaders/PostDownloader.ts:391-396 | decoding inverts XML escaping for every text that does not itself contain `&lt;`, `&gt;`, `&quot;` or `&#39;` |
| `Entities.RoundTripFailsOnEntityText` | src/ts/downloaders/PostDownloader.ts:391-396 | the text `&lt;` escapes to `&amp;lt;` and comes back as `<`, so the restriction above is needed |
| `DashManifest.RepresentationEntries` | src/ts/downloaders/PostDownloader.ts:381-389 | only representations with a non-empty BaseURL take part, each carrying its set's classification |
| `DashManifest.Entries` | src/ts/downloaders/PostDownloader.ts:359-409 | every representation the loop considers has a URL and belongs to a set classified as video or audio |
| `DashManifest.EntriesAppend` | src/ts/downloaders/PostDownloader.ts:359-360 | the sets are processed one after the other, in document order |
| `DashManifest.VideoStep` | src/ts/downloaders/PostDownloader.ts:399-401 | one loop step keeps the video invariant: the kept bandwidth bounds every video entry so far, and the kept URL belongs to the first entry reaching it |
| `DashManifest.RunVideo` | src/ts/downloaders/PostDownloader.ts:351-352 | from the initial state (no URL, bandwidth 0), the loop establishes the video invariant |
| `DashManifest.SelectsBestVideo` | src/ts/downloaders/PostDownloader.ts:399-414 | the parser returns a result exactly when some video entry has positive bandwidth; the URL returned is the decoded URL of the first video entry with the largest bandwidth |
| `DashManifest.AudioStep` | src/ts/downloaders/PostDownloader.ts:402-405 | one loop step keeps the audio invariant, with audio updated only when the entry did not improve the video choice |
| `DashManifest.RunAudio` | src/ts/downloaders/PostDownloader.ts:353-354 | from the initial state, the loop establishes the audio invariant |
| `DashManifest.SelectsAudio` | src/ts/downloaders/PostDownloader.ts:402-422 | an audio URL that is returned belongs to an audio entry that is at least as large as every audio-only entry; one is returned whenever an audio-only entry has positive bandwidth |
| `DashManifest.UnclassifiedSetIgnored` | src/ts/downloaders/PostDownloader.ts:379 | a set classified as neither video nor audio does not change the result |
| `DashManifest.RepresentationWithoutBaseUrlIgnored` | src/ts/downloaders/PostDownloader.ts:388-389 | a representation without a BaseURL does not change the entries |
| `DashManifest.ExampleBestPair` | src/ts/downloaders/PostDownloader.ts:398-405 | video 100/250/250/80 and audio 64/128 select the first 250 video URL and the 128 audio URL |
| `DashManifest.ExampleBothKinds` | src/ts/downloaders/PostDownloader.ts:399-405 | in a set of both kinds, a representation that improves the video choice is not taken for audio |
| `Json.Lookup` | src/ts/downloaders/PostDownloader.ts:260 | reading a key finds a member with that key exactly when there is one, and returns that member's value |
| `Json.JoinContainsPart` | src/ts/downloaders/PostDownloader.ts:270 | text found in one serialised part is found in the comma-joined list |
| `Json.ItemTextInside` | src/ts/downloaders/PostDownloader.ts:270 | text found in an array item's serialisation is found in the array's |
| `Json.MemberTextInside` | src/ts/downloaders/PostDownloader.ts:270 | text found in a member's `"key":value` text is found in the object's serialisation |
| `Json.MemberValueInside` | src/ts/downloaders/PostDownloader.ts:270 | text found in a member value's serialisation is found in the object's |
| `Json.StringMemberInside` | src/ts/downloaders/PostDownloader.ts:270-275 | a string member serialises as `"key":"value"` inside its object |
| `ManifestLocator.NodeCandidate` | src/ts/downloaders/PostDownloader.ts:260-323 | a node is a candidate exactly when it has a non-empty string manifest with a duration, the post id matches exactly or the duration is within 0.1, and the manifest yields a video URL; its score lies in its kind's band, and the kind is exact exactly when the id matches exactly |
| `ManifestLocator.FoldResults` | src/ts/downloaders/PostDownloader.ts:329-343 | folding the children's results keeps every score within its kind's band |
| `ManifestLocator.Walk` | src/ts/downloaders/PostDownloader.ts:253-255 | the walk finds nothing past depth 30 or at a non-object, and whatever it finds is well scored |
| `ManifestLocator.FoldMatchesAppend` | src/ts/downloaders/PostDownloader.ts:320-343 | keeping the strictly better match distributes over concatenated candidate lists |
| `ManifestLocator.FoldMatchesFrom` | src/ts/downloaders/PostDownloader.ts:332-340 | folding from a current best equals comparing that best with the fold of the rest |
| `ManifestLocator.FoldResultsFlatten` | src/ts/downloaders/PostDownloader.ts:329-343 | folding per-child results equals folding all of the children's candidates in order |
| `ManifestLocator.WalkFoldsCandidates` | src/ts/downloaders/PostDownloader.ts:253-345 | the walk equals a strict-improvement fold over all candidates of the subtree in pre-order (node first, then children in order) |
| `ManifestLocator.FoldPicksFirstBest` | src/ts/downloaders/PostDownloader.ts:320-340 | a strict-improvement fold returns the first candidate with the maximal score, and nothing only for no candidates |
| `ManifestLocator.WalkSelectsFirstBest` | src/ts/downloaders/PostDownloader.ts:246-346 | the walk returns nothing exactly when the subtree has no candidate, and otherwise the first best-scoring candidate in pre-order |
| `ManifestLocator.CandidatesWellScored` | src/ts/downloaders/PostDownloader.ts:284-318 | every candidate scores in [99, 100] for an exact id, in (74, 75] when the id is only mentioned, and in (49, 50] for a duration match only |
| `ManifestLocator.ExactIdOutranks` | src/ts/downloaders/PostDownloader.ts:288-318 | among well-scored candidates, one exact-id candidate is enough for the winner to be an exact-id candidate |
| `ManifestLocator.ExactIdWinsInSubtree` | src/ts/downloaders/PostDownloader.ts:288-343 | if the subtree has an exact-id candidate, the walk returns an exact-id candidate |
| `ManifestLocator.IdMemberMatches` | src/ts/downloaders/PostDownloader.ts:271-275 | an object with `shortcode`, `code` or `pk` equal to the id matches the id exactly |
| `ManifestLocator.ExactIdFromItem` | src/ts/downloaders/PostDownloader.ts:270-275 | an exact id in an array item is an exact id of the array, since the test reads the whole subtree |
| `ManifestLocator.ExactIdFromMember` | src/ts/downloaders/PostDownloader.ts:270-275 | an exact id in a member value is an exact id of the object |
| `ManifestLocator.ScriptMatches` | src/ts/downloaders/PostDownloader.ts:219-232 | the per-script matches, kept only for scripts that mention the manifest key and parse, are all well scored; each comes from one script, every script's match is kept, and there are at most as many as scripts |
| `ManifestLocator.ExtractVideoData` | src/ts/downloaders/PostDownloader.ts:234-243 | the result is absent exactly when no script matched, and otherwise it holds the URLs of the first best-scoring match (stable sort) |
| `ManifestLocator.ExactIdWinsAcrossScripts` | src/ts/downloaders/PostDownloader.ts:239-243 | if any script yields an exact-id match, the URLs returned come from an exact-id match |
| `PostIds.Segment` | src/ts/downloaders/PostDownloader.ts:149 | the `[^/]+` capture is the longest slash-free prefix |
| `PostIds.FirstMatchFrom` | src/ts/downloaders/PostDownloader.ts:149 | the search finds the leftmost position from the start index where the pattern matches, or reports that none does |
| `PostIds.ExtractPostId` | src/ts/downloaders/PostDownloader.ts:148-156 | an extracted id is non-empty and slash-free |
| `PostIds.ExtractPostIdLeftmost` | src/ts/downloaders/PostDownloader.ts:148-156 | the id is the segment after the leftmost `/p/` or `/reel/` followed by a non-slash, and null exactly when there is no such position |
| `PostIds.IdNonEmpty` | src/ts/downloaders/PostDownloader.ts:149 | a match always captures at least one character |
| `PostIds.DetailPathYieldsId` | src/ts/downloaders/PostDownloader.ts:440 | the detail-page path `/p/<id>/` of a slash-free id yields that id back |
| `PostIds.SegmentStopsAtSlash` | src/ts/downloaders/PostDownloader.ts:149 | the capture stops at the first slash after the id |
| `PostIds.FromTimeLinks` | src/ts/downloaders/PostDownloader.ts:167-177 | the id comes from the first time-element link whose href matches, and is absent exactly when none does |
| `PostIds.ExtractPostIdFromArticle` | src/ts/downloaders/PostDownloader.ts:158-196 | without an article the URL decides; otherwise time links come first, then the first post link, then the URL; every id is non-empty and slash-free |
| `PostIds.TimeLinkPrecedence` | src/ts/downloaders/PostDownloader.ts:167-177 | the first time link that yields an id decides, whatever the other links say |
| `PostActions.CarouselVideo` | src/ts/downloaders/PostDownloader.ts:459-467 | without `img_index` the first video; with it, video `img_index - 1` when there are fewer than three videos and the second video otherwise; always a valid index or none |
| `PostActions.RouteClick` | src/ts/downloaders/PostDownloader.ts:431-471 | off a detail page or with a dialog open, the click opens the detail URL of the article's post id (or warns when there is none); on a detail page it downloads the carousel's chosen video (or warns) |
| `PostActions.OpenedPageNamesThePost` | src/ts/downloaders/PostDownloader.ts:440 | the page opened in a new tab is a detail page whose path yields the same post id |
| `PostActions.RetryScheduleTotal` | src/ts/downloaders/PostDownloader.ts:47-50 | the ten waits add up to 25 000 ms |
| `PostActions.RetryDelayGrows` | src/ts/downloaders/PostDownloader.ts:49-50 | the total wait grows with the number of retries made |
| `PostActions.LocateWithRetry` | src/ts/downloaders/PostDownloader.ts:41-60 | off a detail page only the first lookup counts; on one, the first lookup that finds data is used, after waiting the schedule's total up to it, and nothing is found only when every lookup fails |
| `PostActions.QueryGet` | src/ts/downloaders/PostDownloader.ts:525-526 | a query parameter reads as the value of its first occurrence, and is absent exactly when the name does not occur |
| `PostActions.CheckAutoDownload` | src/ts/downloaders/PostDownloader.ts:517-543 | the wait starts exactly when not yet triggered, the marker is present and non-empty, and the page is a detail page; then the instance is marked and the query is stripped, otherwise nothing changes |
| `PostActions.AutoDownloadOnce` | src/ts/downloaders/PostDownloader.ts:519-542 | after the wait starts, neither the same instance nor a fresh one on the stripped location starts it again |
| `PostActions.OpenedDetailPageAutoDownloads` | src/ts/downloaders/PostDownloader.ts:524-537 | the location a feed click opens starts the auto-download on a fresh instance |
| `PostActions.WaitForButton` | src/ts/downloaders/PostDownloader.ts:545-556 | the control is clicked at the first poll that finds it, after one second per poll; after 30 empty polls nothing is clicked |
| `PostActions.AddDownloadButton` | src/ts/downloaders/PostDownloader.ts:599-619 | a control is inserted exactly when the post has none, its article (or, without an article, main) holds a video, and a share element exists; a button whose parent is a span gets wrapped |
| `PostActions.AddDownloadButtonIdempotent` | src/ts/downloaders/PostDownloader.ts:601-604 | when the control lands inside the post, a second call changes nothing and the post holds exactly one control |
| `PostActions.WrappedOutsideRepeats` | src/ts/downloaders/PostDownloader.ts:685-690 | when the wrapping span is the post element itself, the control lands outside it and every call inserts another one |
| `PostActions.MergeAccountName` | src/ts/downloaders/PostDownloader.ts:103-112 | the article's account name when non-empty, else main's, else 'unknown'; never empty |
| `PostActions.OutputFileNameRoundTrip` | src/ts/downloaders/PostDownloader.ts:126 | the account name and the whole seconds can be read back from `name_seconds` |
| `PostActions.PrepareMerge` | src/ts/downloaders/PostDownloader.ts:17-127 | a missing post id warns at once; no data after the retries warns to reload when the path read after the wait is a detail page and to open the post otherwise; a found entry without a video URL warns; otherwise the request carries the found URLs, the fallback account name and `name_seconds` |
| `PostActions.MergeResultNotice` | src/ts/downloaders/PostDownloader.ts:134-138 | a missing or unsuccessful reply warns 'Merge failed: ' followed by its error, or by 'Unknown error' when it has none; success shows an info notice |
| `Text.DecimalText` | src/ts/downloaders/PostDownloader.ts:126 | whole seconds print as non-empty decimal digits without leading zeros |
| `Text.DecimalRoundTrip` | src/ts/downloaders/PostDownloader.ts:126 | the printed digits read back as the same number |
| `Text.DecimalTextInjective` | src/ts/downloaders/PostDownloader.ts:126 | different durations print differently |
| `Registry.IndexOf` | src/ts/downloaders/Downloader.ts:87 | `indexOf` is -1 exactly for an absent instance, and otherwise the first position holding it |
| `Registry.Init` | src/ts/downloaders/Downloader.ts:52-67 | init appends the instance only when absent, leaves the observer connected, and adds the controls createDownloadButton inserts after the page's existing elements |
| `Registry.RemoveElements` | src/ts/downloaders/Downloader.ts:93-100 | every element with the class goes, and every other element stays |
| `Registry.Remove` | src/ts/downloaders/Downloader.ts:85-107 | remove shortens the list by one for a present instance and leaves it alone otherwise, leaves no copy behind in a list without duplicates, deletes the class's elements, and disconnects the observer once the list is empty |
| `Registry.RemoveDropsOne` | src/ts/downloaders/Downloader.ts:87-90 | removing a present instance drops exactly one copy of it and keeps every other instance |
| `Registry.InitIdempotent` | src/ts/downloaders/Downloader.ts:54-67 | adding an instance twice is adding it once, when the second call finds every post already holding its control and inserts nothing |
| `Registry.InitPreservesValid` | src/ts/downloaders/Downloader.ts:54-65 | init keeps the list free of duplicates and the observer connected exactly while the list is non-empty |
| `Registry.RemovePreservesValid` | src/ts/downloaders/Downloader.ts:87-106 | remove keeps the same two invariants |
| `Registry.ScanBatch` | src/ts/downloaders/Downloader.ts:14-30 | scanning records and nodes in order, stopping at the first own node, decides exactly whether some added HTML element is or contains an element with class post-download-button, alert or alert-wrapper |
| `Registry.OwnInsertionIgnored` | src/ts/downloaders/Downloader.ts:18-26 | a batch adding a wrapper that contains a download control is ignored |
| `Registry.NonHtmlNeverOwn` | src/ts/downloaders/Downloader.ts:16 | nodes that are not HTML elements never make a batch ignored, whatever they contain |
| `Registry.AdvanceTo` | src/ts/downloaders/Downloader.ts:40-46 | a timer whose deadline has passed fires once, at its deadline, and is spent |
| `Registry.Deliver` | src/ts/downloaders/Downloader.ts:32-46 | an ignored batch only lets time pass; any other batch replaces the pending timer by one due 1000 ms later |
| `Registry.BurstDefersFiring` | src/ts/downloaders/Downloader.ts:36-46 | during a burst nothing fires, and the pending deadline is 1000 ms after the last batch that was not ignored |
| `Registry.BurstFiresOnce` | src/ts/downloaders/Downloader.ts:36-46 | after a burst the timer fires exactly once, 1000 ms after the last batch that was not ignored |
| `Registry.OwnDeliveryKeepsDeadline` | src/ts/downloaders/Downloader.ts:32-34 | an ignored batch before the deadline leaves the timer untouched |
| `Registry.Reinitialize` | src/ts/downloaders/PostDownloader.ts:482-512 | after reinitialize the instance is registered and the observer connected; every control on the page is one this init inserted, all of them are there, and every element that is not a control stays |
| `Registry.ReinitializeRotates` | src/ts/downloaders/PostDownloader.ts:501-504 | reinitialize moves a registered instance to the end of the list, keeps everyone else in order, and keeps the registry valid |
| `Registry.ReinitializeMoves` | src/ts/downloaders/PostDownloader.ts:501-504 | in a list without duplicates, reinitialize cuts the instance out and appends it at the end |
| `Registry.TwoInstancesAsWritten` | src/ts/downloaders/Downloader.ts:43-45 | with two instances, the live-list `forEach` reinitialises the first one twice and the second never |
| `Registry.ReinitializeEachCalls` | src/ts/downloaders/Downloader.ts:43-45 | the corrected firing calls exactly the instances it is given, in order |
| `Registry.ReinitializeEachKeepsInstances` | src/ts/downloaders/Downloader.ts:43-45 | reinitialising registered instances keeps the registry valid and the same instances registered |
| `Registry.FireReinitializesEach` | src/ts/downloaders/Downloader.ts:43-45 | the corrected firing calls every registered instance exactly once and keeps the same instances registered |
| `Registry.SingleInstanceFire` | src/ts/downloaders/Downloader.ts:43-45 | with the single downloader the extension creates, the firing as written and as corrected agree: one call, the list is that instance again, and the page is the other elements followed by the freshly inserted controls |
| `Registry.Elapse` | src/ts/downloaders/Downloader.ts:40-46 | when time passes a due timer fires once, and its callback runs the live `forEach` over the registry as it is at the deadline; otherwise nothing changes |
| `Registry.Observe` | src/ts/downloaders/Downloader.ts:12-46 | a page change reaches the debounce only while an observer is connected, after any timer due by then has fired |
| `Registry.IdleStaysIdle` | src/ts/downloaders/Downloader.ts:40-46 | with nobody registered and no observer, no sequence of removals, page changes and elapsed time calls reinitialise or registers anyone |
| `Registry.LastRemovalStopsReinitialising` | src/ts/downloaders/Downloader.ts:85-107 | after the last instance is removed, no event short of creating an instance leads to a reinitialise call |
| `Registry.StaleTimerFiresOverEmptyList` | src/ts/downloaders/Downloader.ts:85-107 | remove does not clear the pending timer: it still fires at its deadline after the last removal, over an empty list, calling nobody |
| `Registry.ForEachLiveObserves` | src/ts/downloaders/Downloader.ts:43-45 | the live `forEach` leaves the observer connected, since every call ends with init |
| `Registry.ObservedChangeDebounced` | src/ts/downloaders/Downloader.ts:32-46 | while an observer is connected, a page change is debounced exactly as `Deliver` states, even when the timer fires first |
| `Registry.SingleInstanceReconciled` | src/ts/downloaders/Downloader.ts:36-46 | with one downloader, a change the extension did not make reinitialises it once, 1000 ms later, leaves it the only instance, and replaces the old controls by those for the posts the change left |
| `Registry.GetAccountName` | src/ts/downloaders/Downloader.ts:114-123 | the account element's text, or 'no_account_found' when there is no element to read |
| `Text.BeforeFirst` | src/ts/background/download.ts:65 | `split('?')[0]` is the longest prefix without '?' |
| `Text.AfterLast` | src/ts/background/download.ts:65 | `split(c).pop()` is the longest suffix without `c` |
| `Text.Utf16Length` | src/ts/background/download.ts:32 | JavaScript's `length` counts at least one and at most two code units per character |
| `Text.Utf16LengthAstral` | src/ts/background/download.ts:32 | characters outside the Basic Multilingual Plane count two code units each |
| `Text.AfterLastOfJoin` | src/ts/background/download.ts:29 | the last part after a separator is recovered from the joined text |
| `BackgroundDownload.ImageId` | src/ts/background/download.ts:64-66 | the id is the last '/'-segment of the text before the first '?' |
| `BackgroundDownload.Extension` | src/ts/background/download.ts:29-34 | the extension is the text after the id's last '.', or 'mp4' when that is empty or longer than five UTF-16 code units; always 1 to 5 code units without dots |
| `BackgroundDownload.AstralExtensionFallsBack` | src/ts/background/download.ts:29-34 | three characters outside the Basic Multilingual Plane are six code units, so such an extension falls back to 'mp4' |
| `BackgroundDownload.ExtensionLacksSlash` | src/ts/background/download.ts:29-34 | the extension of an id without '/' has no '/' either |
| `BackgroundDownload.FileExtension` | src/ts/background/download.ts:28-34 | the extension taken from a URL is 1 to 5 UTF-16 code units with neither '.' nor '/' |
| `BackgroundDownload.FileName` | src/ts/background/download.ts:37 | the saved name starts with the requested name and a dot, and adds at most six characters |
| `BackgroundDownload.FileNameRoundTrip` | src/ts/background/download.ts:37 | the extension and the requested name are recovered from the saved name |
| `BackgroundDownload.ExtensionFromMediaUrl` | src/ts/background/download.ts:28-34 | `dir/stem.ext?query` with an extension of at most five code units gives `stem.ext` and `ext`, whatever the query holds |
| `BackgroundDownload.LongExtensionlessIdFallsBack` | src/ts/background/download.ts:29-34 | an id without a dot is its own extension, so one longer than five UTF-16 code units falls back to 'mp4' |
| `BackgroundDownload.SearchById` | src/ts/background/download.ts:9 | the search returns exactly the entries with that id |
| `BackgroundDownload.DownloadFailed` | src/ts/background/download.ts:8-12 | a failure is reported only when an entry with that id exists and has a non-empty error, and never when none exists |
| `BackgroundDownload.DownloadFailedExactly` | src/ts/background/download.ts:8-12 | with unique download ids, a failure is reported exactly when the entry with that id has an error |
| `BackgroundDownload.DownloadSingleImage` | src/ts/background/download.ts:26-56 | Firefox fetches first and others download natively first; the whole call rejects exactly when the first method rejects; the other method is started, under the same name, exactly when the first resolved and is reported failed, 2000 ms after the first method resolves plus the search's time plus 100 ms |
| `BackgroundDownload.FallbackNotBefore` | src/ts/background/download.ts:41-56 | the fallback starts no sooner than 2100 ms after the request, and exactly then only when the first method and the search answer at once |
| `BackgroundDownload.RejectedFirstMethodNoFallback` | src/ts/background/download.ts:41-53 | a first method that rejects gets no check and no fallback, and the call rejects |
| `BackgroundDownload.FallbackUsesBothMethods` | src/ts/background/download.ts:41-56 | after a failure both methods have been tried, under the same file name |
| `MessageHandler.EnsureOffscreenDocument` | src/ts/background/BackgroundMessageHandler.ts:25-46 | a document is created exactly when no offscreen context exists |
| `MessageHandler.OnUpdate` | src/ts/background/BackgroundMessageHandler.ts:16-23 | the options page opens exactly when the reason is 'update' |
| `MessageHandler.RouteOf` | src/ts/background/BackgroundMessageHandler.ts:52-73 | routing depends on the type alone: 'FFMPEG_MERGE' is left to the offscreen document, 'FFMPEG_PROGRESS' is forwarded, the numeric merge type merges |
| `MessageHandler.ForwardProgressTo` | src/ts/background/BackgroundMessageHandler.ts:57-71 | progress goes, with the same value and the numeric progress type, to the recorded tab exactly when a truthy tab id is recorded |
| `MessageHandler.BeginMerge` | src/ts/background/BackgroundMessageHandler.ts:75-77 | a merge request records the sender's tab when its id is truthy, and leaves the state alone otherwise |
| `MessageHandler.OffscreenError` | src/ts/background/BackgroundMessageHandler.ts:99-100 | the error of a failed merge is the offscreen document's error text, or 'Merge failed' when it gave none; never empty |
| `MessageHandler.FinishMerge` | src/ts/background/BackgroundMessageHandler.ts:85-121 | success exactly when every browser call succeeds and the offscreen document reports success; a rejected context lookup fails with its message before any other call; a document is created exactly when the lookup finds none; nothing is sent to the offscreen document unless one is ready; a download starts only after a reported success, under `<name>.mp4`; the tab is cleared either way |
| `MessageHandler.ContextLookupFailureCallsNothing` | src/ts/background/BackgroundMessageHandler.ts:28-30 | a merge request whose context lookup rejects is answered with that rejection's message, clears the tab, and makes no browser call |
| `MessageHandler.OnMessage` | src/ts/background/BackgroundMessageHandler.ts:48-123 | only merge requests get an answer and clear the tab; every other message leaves the state unchanged and resolves to undefined |
| `MessageHandler.UnansweredMessages` | src/ts/background/BackgroundMessageHandler.ts:52-54 | requests meant for the offscreen document, and unknown types, get no answer and change nothing |
| `MessageHandler.NumericProgressIgnored` | src/ts/background/BackgroundMessageHandler.ts:57-73 | the numeric progress type is not routed |
| `MessageHandler.ProgressReachesRequester` | src/ts/background/BackgroundMessageHandler.ts:57-77 | progress reported while a merge runs reaches the tab that asked for it, with the same value |
| `MessageHandler.NoProgressAfterMerge` | src/ts/background/BackgroundMessageHandler.ts:113-119 | after a merge, finished either way, progress is forwarded nowhere |
| `MessageHandler.FailedMergeStartsNoDownload` | src/ts/background/BackgroundMessageHandler.ts:99-101 | a missing or unsuccessful offscreen reply fails with its error or 'Merge failed', and starts no download |
| `MessageHandler.SuccessfulMergeDownloads` | src/ts/background/BackgroundMessageHandler.ts:106-115 | a successful merge downloads the blob as `<name>.mp4` and reports success |
| `MessageHandler.FailureReachesTheUser` | src/ts/downloaders/PostDownloader.ts:134-135 | the router's failure text reaches the user as 'Merge failed: ' followed by that text |

## Left out

- Regular expressions over manifest text: the `AdaptationSet` and `Representation` scans are inputs (the tokenised sets), and so is the `mediaPresentationDuration` parse (`durationOf`).
- JSON.parse is an input (the parsed value, or none when it throws). Serialisation does not escape strings, and object keys are assumed distinct, in enumeration order.
- Floating point: durations are `real`, so NaN and rounding are not modelled, and neither is `toFixed` logging. `Math.floor` of the duration is given as whole seconds.
- The DOM, MutationObserver, timers, promises, `window.open` and `history.replaceState` become inputs and results. Selector matching is reduced to booleans and class sets, and page removal to a flat list of class sets.
- retryCreateButton and createDownloadButton: the re-query loop has no bound until the downloader is removed, so no bound is claimed. Control insertion is modelled per post by `PostActions.AddDownloadButton`.
- Registry.Init: the controls createDownloadButton inserts are an input, not computed from the posts on the page, which the registry does not model; the reconciler takes them from the latest page change.
- Cloning the share control and its SVG markup: pure presentation.
- The exceptions caught by downloadVideoWithMerge (alert 'Could not merge video and audio'): a DOM call that throws, or `browser.runtime.sendMessage` rejecting when the background page cannot be reached; and those caught by extractPostIdFromArticle, which come from the DOM.
- Concurrent merges: `MessageHandler.OnMessage` runs a merge to completion. The in-flight window is covered by `BeginMerge` followed by progress messages.
- The FFmpeg merger, the offscreen page, XHR downloads, alerts' animation, the options page, selector constants, the legacy DOM observer and decorators, and build scripts are not part of this model.
- DashManifest.SelectsAudio: the chosen audio URL is bounded only against audio-only entries. With sets of both kinds, the precise audio choice depends on the video updates and is shown by `DashManifest.ExampleBothKinds`, not characterised in general.
- BackgroundDownload.DownloadSingleImage: the `browser.downloads.search` call inside downloadFailed is assumed to resolve, and a fallback method that rejects is not modelled; it runs in a timer whose rejection nobody observes.
- BackgroundDownload.DownloadFailedExactly: assumes download ids are unique in the browser's list. Without that, `DownloadFailed` reads the last entry found.
- PostActions.PrepareMerge: the whole seconds of the duration are an input, and the playing video's element and article are reduced to the post id they yield.

## Findings

| source | as written | input that shows it | evidently intended | confidence | as-written member | corrected member |
|---|---|---|---|---|---|---|
| src/ts/downloaders/Downloader.ts:43-45 | the debounced callback runs `forEach` over the live instance list, and each `reinitialize` removes its instance and pushes it back at the end | two registered downloaders `[a, b]`: index 0 calls `a`, which leaves the list `[b, a]`; index 1 calls `a` again; `b` is never reinitialised | every registered downloader is reinitialised once | not executed; latent, since the extension registers a single downloader | `Registry.TwoInstancesAsWritten` | `Registry.FireReinitializesEach` |

=== FILE: background_download.dfy ===
/**
 * Single-file downloads in the background page (download.ts): the name taken
 * from the URL, the extension fallback, and the order in which the two
 * download methods are tried.
 */
module BackgroundDownload {
  import opened Wrappers
  import opened Text

  /** getImageId: the last path segment of the URL with the query cut off. */
  function ImageId(url: string): (r: string)
    ensures '/' !in r && '?' !in r
    ensures var path := BeforeFirst(url, '?');
            |r| <= |path| && r == path[|path| - |r|..]
    ensures '/' !in BeforeFirst(url, '?') ==> r == BeforeFirst(url, '?')
  {
    AfterLast(BeforeFirst(url, '?'), '/')
  }

  const DefaultExtension := "mp4"
  const MaxExtensionLength := 5

  /**
   * The extension of an id: the text after its last '.' (all of it when it has
   * none), replaced by 'mp4' when empty or longer than five UTF-16 code units.
   */
  function Extension(id: string): (r: string)
    ensures 0 < |r| <= Utf16Length(r) <= MaxExtensionLength
    ensures '.' !in r
    ensures var last := AfterLast(id, '.');
            r == (if 0 < |last| && Utf16Length(last) <= MaxExtensionLength then last else DefaultExtension)
  {
    var last := AfterLast(id, '.');
    if |last| == 0 || Utf16Length(last) > MaxExtensionLength then
      DefaultExtensionShape();
      DefaultExtension
    else
      last
  }

  lemma DefaultExtensionShape()
    ensures '.' !in DefaultExtension && Utf16Length(DefaultExtension) == |DefaultExtension| == 3
  {
    var d := DefaultExtension;
    assert d == ['m', 'p', '4'];
    assert d[1..] == ['p', '4'] && d[1..][1..] == ['4'] && d[1..][1..][1..] == [];
  }

  /** An id without '/' has an extension without '/'. */
  lemma ExtensionLacksSlash(id: string)
    requires '/' !in id
    ensures '/' !in Extension(id)
  {
    var last := AfterLast(id, '.');
    if 0 < |last| && Utf16Length(last) <= MaxExtensionLength {
      SuffixLacks(id, last, '/');
    }
  }

  /** The extension of the file a URL names. */
  function FileExtension(url: string): (r: string)
    ensures 0 < |r| <= Utf16Length(r) <= MaxExtensionLength
    ensures '.' !in r && '/' !in r
  {
    ExtensionLacksSlash(ImageId(url));
    Extension(ImageId(url))
  }

  /** A suffix of a text without `c` has no `c` either. */
  lemma SuffixLacks(s: string, t: string, c: char)
    requires c !in s && |t| <= |s| && t == s[|s| - |t|..]
    ensures c !in t
  {
    forall i | 0 <= i < |t|
      ensures t[i] != c
    {
      assert t[i] == s[|s| - |t| + i];
    }
  }

  /** The saved file name: the requested name, a dot, and the extension. */
  function FileName(outputFileName: string, url: string): (r: string)
    ensures StartsWith(r, outputFileName + ".")
    ensures |r| <= |outputFileName| + 1 + MaxExtensionLength
  {
    outputFileName + "." + FileExtension(url)
  }

  /** The extension is what follows the last dot of the saved name, and what precedes it is the requested name. */
  lemma FileNameRoundTrip(outputFileName: string, url: string)
    ensures AfterLast(FileName(outputFileName, url), '.') == FileExtension(url)
    ensures var f := FileName(outputFileName, url);
            f[..|f| - |FileExtension(url)| - 1] == outputFileName
  {
    AfterLastOfJoin(outputFileName, '.', FileExtension(url));
    assert FileName(outputFileName, url) == outputFileName + ['.'] + FileExtension(url);
  }

  /** A media URL keeps its own extension; the query is ignored, whatever it holds. */
  lemma ExtensionFromMediaUrl(dir: string, stem: string, ext: string, query: string)
    requires '?' !in dir && '?' !in stem && '/' !in stem
    requires '?' !in ext && '/' !in ext && '.' !in ext && 0 < |ext| && Utf16Length(ext) <= MaxExtensionLength
    ensures var id := stem + "." + ext;
            ImageId(dir + "/" + id + "?" + query) == id && FileExtension(dir + "/" + id + "?" + query) == ext
  {
    var id := stem + "." + ext;
    assert '?' !in id && '/' !in id;
    ImageIdOfMediaUrl(dir, id, query);
    ShortExtensionKept(stem, ext);
  }

  lemma ImageIdOfMediaUrl(dir: string, id: string, query: string)
    requires '?' !in dir && '?' !in id && '/' !in id
    ensures ImageId(dir + "/" + id + "?" + query) == id
  {
    var path := dir + "/" + id;
    assert '?' !in path;
    assert dir + "/" + id + "?" + query == path + ['?'] + query;
    BeforeFirstOfJoin(path, '?', query);
    assert path == dir + ['/'] + id;
    AfterLastOfJoin(dir, '/', id);
  }

  lemma ShortExtensionKept(stem: string, ext: string)
    requires '.' !in ext && 0 < |ext| && Utf16Length(ext) <= MaxExtensionLength
    ensures Extension(stem + "." + ext) == ext
  {
    assert stem + "." + ext == stem + ['.'] + ext;
    AfterLastOfJoin(stem, '.', ext);
  }

  /**
   * An id without a dot is its own extension, so one longer than five UTF-16
   * code units falls back to 'mp4' (three characters outside the Basic
   * Multilingual Plane already count six).
   */
  lemma LongExtensionlessIdFallsBack(dir: string, id: string)
    requires '?' !in dir && '?' !in id && '/' !in id && '.' !in id && Utf16Length(id) > MaxExtensionLength
    ensures FileExtension(dir + "/" + id) == DefaultExtension
  {
    assert '?' !in dir + "/" + id;
    BeforeFirstWithout(dir + "/" + id, '?');
    assert dir + "/" + id == dir + ['/'] + id;
    AfterLastOfJoin(dir, '/', id);
    AfterLastWithout(id, '.');
  }

  /** Three characters outside the Basic Multilingual Plane are six code units, too long to be kept as an extension. */
  lemma AstralExtensionFallsBack(stem: string, ext: string)
    requires |ext| == 3 && forall i :: 0 <= i < |ext| ==> ext[i] as int > 0xFFFF
    ensures Extension(stem + "." + ext) == DefaultExtension
  {
    assert '.' !in ext by {
      forall i | 0 <= i < |ext|
        ensures ext[i] != '.'
      {
        assert ext[i] as int > 0xFFFF;
      }
    }
    assert stem + "." + ext == stem + ['.'] + ext;
    AfterLastOfJoin(stem, '.', ext);
    Utf16LengthAstral(ext);
  }

  lemma {:induction false} BeforeFirstOfJoin(a: string, c: char, b: string)
    requires c !in a
    ensures BeforeFirst(a + [c] + b, c) == a
    decreases |a|
  {
    if |a| > 0 {
      assert (a + [c] + b)[1..] == a[1..] + [c] + b;
      BeforeFirstOfJoin(a[1..], c, b);
    }
  }

  lemma BeforeFirstWithout(s: string, c: char)
    requires c !in s
    ensures BeforeFirst(s, c) == s
  {
  }

  lemma AfterLastWithout(s: string, c: char)
    requires c !in s
    ensures AfterLast(s, c) == s
  {
  }

  // ---------------------------------------------------------------------------
  // downloadFailed and downloadSingleImage.
  // ---------------------------------------------------------------------------

  /** An entry of the browser's download list, with its error text if any. */
  datatype DownloadItem = DownloadItem(id: int, error: Option<string>)

  /** `!!item.error`: an error is recorded and is not the empty string. */
  predicate HasError(item: DownloadItem) {
    item.error.Some? && |item.error.value| > 0
  }

  /** `browser.downloads.search({id})`: the entries with that id, in list order. */
  function SearchById(all: seq<DownloadItem>, id: int): (r: seq<DownloadItem>)
    ensures forall i :: 0 <= i < |r| ==> r[i].id == id && r[i] in all
    ensures forall i :: 0 <= i < |all| && all[i].id == id ==> all[i] in r
    decreases |all|
  {
    if |all| == 0 then []
    else if all[0].id == id then [all[0]] + SearchById(all[1..], id)
    else SearchById(all[1..], id)
  }

  /** downloadFailed: the last entry found has an error; false when nothing is found. */
  function DownloadFailed(all: seq<DownloadItem>, id: int): (r: bool)
    ensures r ==> exists i :: 0 <= i < |all| && all[i].id == id && HasError(all[i])
    ensures (forall i :: 0 <= i < |all| ==> all[i].id != id) ==> !r
  {
    var found := SearchById(all, id);
    if |found| == 0 then false else HasError(found[|found| - 1])
  }

  /** With ids unique in the list, as the browser keeps them, a failure is exactly an errored entry with that id. */
  lemma DownloadFailedExactly(all: seq<DownloadItem>, id: int)
    requires forall i, j :: 0 <= i < j < |all| ==> all[i].id != all[j].id
    ensures DownloadFailed(all, id) <==> exists i :: 0 <= i < |all| && all[i].id == id && HasError(all[i])
  {
    var found := SearchById(all, id);
    if i :| 0 <= i < |all| && all[i].id == id && HasError(all[i]) {
      assert all[i] in found;
      assert |found| == 1 by {
        SearchSingle(all, id, i);
      }
    }
  }

  lemma {:induction false} SearchSingle(all: seq<DownloadItem>, id: int, i: nat)
    requires forall a, b :: 0 <= a < b < |all| ==> all[a].id != all[b].id
    requires i < |all| && all[i].id == id
    ensures SearchById(all, id) == [all[i]]
    decreases |all|
  {
    if i == 0 {
      NotSearched(all[1..], id);
    } else {
      assert all[0].id != id;
      SearchSingle(all[1..], id, i - 1);
    }
  }

  lemma {:induction false} NotSearched(all: seq<DownloadItem>, id: int)
    requires forall a :: 0 <= a < |all| ==> all[a].id != id
    ensures SearchById(all, id) == []
    decreases |all|
  {
    if |all| > 0 {
      NotSearched(all[1..], id);
    }
  }

  /** fetchDownload (fetch into a blob, then save it) or nativeDownload (let the browser fetch). */
  datatype DownloadMethod = FetchToBlob | Native

  /** A download started with a method at a time in milliseconds after the request. */
  datatype DownloadStart = DownloadStart(via: DownloadMethod, url: string, fileName: string, at: nat)

  const FailureCheckDelayMs := 2000
  const FallbackDelayMs := 100

  /** Firefox fetches first; other browsers let the browser download first. */
  function FirstMethod(isFirefox: bool): DownloadMethod {
    if isFirefox then FetchToBlob else Native
  }

  function OtherMethod(m: DownloadMethod): (r: DownloadMethod)
    ensures r != m
  {
    if m == FetchToBlob then Native else FetchToBlob
  }

  /**
   * What downloadSingleImage does: the download methods it calls, in order,
   * and whether its own promise rejects (when the first method's promise does).
   */
  datatype SingleImageRun = SingleImageRun(attempts: seq<DownloadStart>, rejected: bool)

  /**
   * downloadSingleImage: start the first method, wait two seconds once its
   * promise resolves, search the browser's list, and start the other method
   * 100 ms after the search answers, only if the first one failed.
   * `firstId` is the id the first method resolved to, or None when its promise
   * rejected (a failed fetch, or a download the browser refused): then there is
   * no wait, no check and no fallback, and the rejection propagates.
   * `resolvedAfter` is how long the first method's promise takes (on Firefox
   * the whole fetch plus the save), `searchTook` how long the search takes,
   * and `downloads` is the browser's list when it looks.
   */
  function DownloadSingleImage(isFirefox: bool, url: string, outputFileName: string, firstId: Option<int>,
                               resolvedAfter: nat, searchTook: nat, downloads: seq<DownloadItem>): (r: SingleImageRun)
    ensures 1 <= |r.attempts| <= 2
    ensures r.attempts[0] == DownloadStart(FirstMethod(isFirefox), url, FileName(outputFileName, url), 0)
    ensures r.rejected <==> firstId.None?
    ensures |r.attempts| == 2 <==> firstId.Some? && DownloadFailed(downloads, firstId.value)
    ensures |r.attempts| == 2 ==>
              r.attempts[1] == r.attempts[0].(via := OtherMethod(r.attempts[0].via),
                                              at := resolvedAfter + FailureCheckDelayMs + searchTook + FallbackDelayMs)
  {
    var name := FileName(outputFileName, url);
    var first := DownloadStart(FirstMethod(isFirefox), url, name, 0);
    match firstId
    case None => SingleImageRun([first], true)
    case Some(id) =>
      if DownloadFailed(downloads, id) then
        var checkedAt := resolvedAfter + FailureCheckDelayMs + searchTook;
        SingleImageRun([first, DownloadStart(OtherMethod(first.via), url, name, checkedAt + FallbackDelayMs)], false)
      else SingleImageRun([first], false)
  }

  /**
   * The fallback never starts sooner than 2100 ms after the request, and
   * starts exactly then only when the first method and the search answer at once.
   */
  lemma FallbackNotBefore(isFirefox: bool, url: string, outputFileName: string, firstId: int,
                          resolvedAfter: nat, searchTook: nat, downloads: seq<DownloadItem>)
    requires DownloadFailed(downloads, firstId)
    ensures var r := DownloadSingleImage(isFirefox, url, outputFileName, Some(firstId), resolvedAfter, searchTook, downloads);
            && r.attempts[1].at >= r.attempts[0].at + FailureCheckDelayMs + FallbackDelayMs
            && (r.attempts[1].at == FailureCheckDelayMs + FallbackDelayMs <==> resolvedAfter == 0 && searchTook == 0)
  {
  }

  /** Both methods save under the same name, and a retry never repeats the method that failed. */
  lemma FallbackUsesBothMethods(isFirefox: bool, url: string, outputFileName: string, firstId: int,
                                resolvedAfter: nat, searchTook: nat, downloads: seq<DownloadItem>)
    requires DownloadFailed(downloads, firstId)
    ensures var r := DownloadSingleImage(isFirefox, url, outputFileName, Some(firstId), resolvedAfter, searchTook, downloads).attempts;
            {r[0].via, r[1].via} == {FetchToBlob, Native} && r[0].fileName == r[1].fileName
  {
  }

  /** A first method that rejects gets no fallback, whatever the browser's list holds. */
  lemma RejectedFirstMethodNoFallback(isFirefox: bool, url: string, outputFileName: string,
                                      resolvedAfter: nat, searchTook: nat, downloads: seq<DownloadItem>)
    ensures var r := DownloadSingleImage(isFirefox, url, outputFileName, None, resolvedAfter, searchTook, downloads);
            r.rejected && |r.attempts| == 1 && r.attempts[0].via == FirstMethod(isFirefox)
  {
  }
}

=== FILE: dash_manifest.dfy ===
/**
 * The DASH representation selector (PostDownloader.parseDashManifest).
 *
 * The manifest is taken after tokenisation: a sequence of AdaptationSet
 * elements (section 5.3.3 of ISO/IEC 23009-1), each with the text of its
 * opening tag, the text of its body, and its Representation elements
 * (section 5.3.5) with `@bandwidth` and the text of the first `<BaseURL>`
 * (section 5.6). Each set is classified as video and/or audio by substring
 * tests; for each kind the BaseURL of the highest-bandwidth representation
 * is kept, after entity decoding.
 */
module DashManifest {
  import opened Wrappers
  import opened Text
  import Entities

  datatype Representation = Representation(bandwidth: nat, baseUrl: Option<string>)

  datatype AdaptationSet = AdaptationSet(openTag: string, body: string, representations: seq<Representation>)

  /** What the selector returns: a video URL, and an audio URL when one was found. */
  datatype StreamUrls = StreamUrls(videoUrl: string, audioUrl: Option<string>)

  /** The whole matched element: opening tag, body and closing tag. */
  function FullText(a: AdaptationSet): string {
    a.openTag + a.body + "</AdaptationSet>"
  }

  predicate IsVideoSet(a: AdaptationSet) {
    || Contains(a.body, "video/")
    || Contains(a.body, "codecs=\"vp")
    || Contains(a.body, "codecs=\"avc")
    || Contains(a.body, "codecs=\"hev")
    || Contains(FullText(a), "contentType=\"video\"")
    || Contains(FullText(a), "mimeType=\"video/")
  }

  predicate IsAudioSet(a: AdaptationSet) {
    || Contains(a.body, "audio/")
    || Contains(a.body, "codecs=\"opus\"")
    || Contains(a.body, "codecs=\"mp4a")
    || Contains(a.body, "codecs=\"aac")
    || Contains(FullText(a), "contentType=\"audio\"")
    || Contains(FullText(a), "mimeType=\"audio/")
  }

  /** The `<BaseURL>([^<]+)</BaseURL>` capture needs at least one character. */
  predicate HasBaseUrl(r: Representation) {
    r.baseUrl.Some? && |r.baseUrl.value| > 0
  }

  /** One representation the selector looks at, with the classification of its set and its raw URL. */
  datatype Entry = Entry(isVideo: bool, isAudio: bool, bandwidth: nat, rawUrl: string)

  function RepresentationEntries(reps: seq<Representation>, isVideo: bool, isAudio: bool): (es: seq<Entry>)
    ensures forall i :: 0 <= i < |es| ==> |es[i].rawUrl| > 0 && es[i].isVideo == isVideo && es[i].isAudio == isAudio
    ensures |es| <= |reps|
  {
    if |reps| == 0 then []
    else
      var head := if HasBaseUrl(reps[0]) then [Entry(isVideo, isAudio, reps[0].bandwidth, reps[0].baseUrl.value)] else [];
      head + RepresentationEntries(reps[1..], isVideo, isAudio)
  }

  /** The representations a set contributes: none unless it is classified as video or audio. */
  function SetEntries(a: AdaptationSet): seq<Entry> {
    if IsVideoSet(a) || IsAudioSet(a) then RepresentationEntries(a.representations, IsVideoSet(a), IsAudioSet(a))
    else []
  }

  /** The nested loop of the source, flattened: every entry in document order. */
  function Entries(sets: seq<AdaptationSet>): (es: seq<Entry>)
    ensures forall i :: 0 <= i < |es| ==> |es[i].rawUrl| > 0 && (es[i].isVideo || es[i].isAudio)
  {
    if |sets| == 0 then [] else SetEntries(sets[0]) + Entries(sets[1..])
  }

  lemma {:induction false} EntriesAppend(xs: seq<AdaptationSet>, ys: seq<AdaptationSet>)
    ensures Entries(xs + ys) == Entries(xs) + Entries(ys)
    decreases |xs|
  {
    if |xs| == 0 {
      assert xs + ys == ys;
    } else {
      assert (xs + ys)[1..] == xs[1..] + ys;
      EntriesAppend(xs[1..], ys);
    }
  }

  /** The loop state: the best URL and bandwidth seen so far for each kind (bandwidths start at 0). */
  datatype Best = Best(videoUrl: Option<string>, videoBandwidth: nat, audioUrl: Option<string>, audioBandwidth: nat)

  const Start := Best(None, 0, None, 0)

  /** One loop iteration: video improves on `>`, otherwise audio may improve on `>`. */
  function Step(b: Best, e: Entry): Best {
    var url := Entities.Decode(e.rawUrl);
    if e.isVideo && e.bandwidth > b.videoBandwidth then b.(videoUrl := Some(url), videoBandwidth := e.bandwidth)
    else if e.isAudio && e.bandwidth > b.audioBandwidth then b.(audioUrl := Some(url), audioBandwidth := e.bandwidth)
    else b
  }

  /** The loop state after visiting `es` in order. */
  function Run(es: seq<Entry>): Best
    decreases |es|
  {
    if |es| == 0 then Start else Step(Run(es[..|es| - 1]), es[|es| - 1])
  }

  /** `!bestVideoUrl`: undefined and the empty string are both falsy. */
  predicate Falsy(u: Option<string>) {
    u.None? || |u.value| == 0
  }

  /** parseDashManifest: null unless a video URL was selected; the audio URL is optional. */
  function ParseDashManifest(sets: seq<AdaptationSet>): Option<StreamUrls> {
    var b := Run(Entries(sets));
    if Falsy(b.videoUrl) then None else Some(StreamUrls(b.videoUrl.value, b.audioUrl))
  }

  // ---------------------------------------------------------------------------
  // What the selection means.
  // ---------------------------------------------------------------------------

  /** Entry `i` is the first video entry of the largest bandwidth, and that bandwidth is positive. */
  ghost predicate IsBestVideo(es: seq<Entry>, i: int) {
    && 0 <= i < |es|
    && es[i].isVideo
    && es[i].bandwidth > 0
    && (forall j :: 0 <= j < |es| && es[j].isVideo ==> es[j].bandwidth <= es[i].bandwidth)
    && (forall j :: 0 <= j < i && es[j].isVideo ==> es[j].bandwidth < es[i].bandwidth)
  }

  ghost predicate HasPositiveVideo(es: seq<Entry>) {
    exists i :: 0 <= i < |es| && es[i].isVideo && es[i].bandwidth > 0
  }

  /** What the loop state says about video after visiting `es`. */
  ghost predicate VideoInvariant(es: seq<Entry>, b: Best) {
    && (forall j :: 0 <= j < |es| && es[j].isVideo ==> es[j].bandwidth <= b.videoBandwidth)
    && (b.videoUrl.None? <==> b.videoBandwidth == 0)
    && (b.videoBandwidth > 0 ==>
          exists i :: IsBestVideo(es, i) && b.videoUrl == Some(Entities.Decode(es[i].rawUrl)) && b.videoBandwidth == es[i].bandwidth)
  }

  lemma VideoStep(p: seq<Entry>, e: Entry, b: Best)
    requires VideoInvariant(p, b)
    ensures VideoInvariant(p + [e], Step(b, e))
  {
    if e.isVideo && e.bandwidth > b.videoBandwidth {
      VideoImproves(p, e, b);
    } else {
      VideoKept(p, e, b);
    }
  }

  lemma VideoImproves(p: seq<Entry>, e: Entry, b: Best)
    requires VideoInvariant(p, b)
    requires e.isVideo && e.bandwidth > b.videoBandwidth
    ensures VideoInvariant(p + [e], b.(videoUrl := Some(Entities.Decode(e.rawUrl)), videoBandwidth := e.bandwidth))
  {
    var es := p + [e];
    assert forall j :: 0 <= j < |p| ==> es[j] == p[j];
    assert es[|p|] == e;
    assert IsBestVideo(es, |p|);
  }

  lemma VideoKept(p: seq<Entry>, e: Entry, b: Best)
    requires VideoInvariant(p, b)
    requires !(e.isVideo && e.bandwidth > b.videoBandwidth)
    ensures VideoInvariant(p + [e], b)
  {
    var es := p + [e];
    assert forall j :: 0 <= j < |p| ==> es[j] == p[j];
    assert es[|p|] == e;
    if b.videoBandwidth > 0 {
      var i :| IsBestVideo(p, i) && b.videoUrl == Some(Entities.Decode(p[i].rawUrl)) && b.videoBandwidth == p[i].bandwidth;
      assert IsBestVideo(es, i);
    }
  }

  /** The invariant the loop keeps for video. */
  lemma {:induction false} RunVideo(es: seq<Entry>)
    ensures VideoInvariant(es, Run(es))
    decreases |es|
  {
    if |es| > 0 {
      var p := es[..|es| - 1];
      var e := es[|es| - 1];
      assert p + [e] == es;
      RunVideo(p);
      VideoStep(p, e, Run(p));
    }
  }

  /**
   * The chosen video URL is the decoded BaseURL of the first video-classified
   * representation of strictly largest bandwidth; the parser returns null
   * exactly when no video representation with positive bandwidth exists,
   * whatever audio there is.
   */
  lemma SelectsBestVideo(sets: seq<AdaptationSet>)
    ensures ParseDashManifest(sets).Some? <==> HasPositiveVideo(Entries(sets))
    ensures ParseDashManifest(sets).Some? ==>
              exists i :: IsBestVideo(Entries(sets), i)
                       && ParseDashManifest(sets).value.videoUrl == Entities.Decode(Entries(sets)[i].rawUrl)
  {
    var es := Entries(sets);
    RunVideo(es);
    var b := Run(es);
    if b.videoBandwidth > 0 {
      var i :| IsBestVideo(es, i) && b.videoUrl == Some(Entities.Decode(es[i].rawUrl)) && b.videoBandwidth == es[i].bandwidth;
      Entities.DecodeKeepsNonEmpty(es[i].rawUrl, 0);
    }
  }

  /** What the loop state says about audio after visiting `es`. */
  ghost predicate AudioInvariant(es: seq<Entry>, b: Best) {
    && (forall j :: 0 <= j < |es| && es[j].isAudio && !es[j].isVideo ==> es[j].bandwidth <= b.audioBandwidth)
    && (b.audioUrl.None? <==> b.audioBandwidth == 0)
    && (b.audioBandwidth > 0 ==>
          exists i :: && 0 <= i < |es| && es[i].isAudio
                      && b.audioUrl == Some(Entities.Decode(es[i].rawUrl))
                      && b.audioBandwidth == es[i].bandwidth
                      && (forall j :: 0 <= j < i && es[j].isAudio && !es[j].isVideo ==> es[j].bandwidth < es[i].bandwidth))
  }

  lemma AudioStep(p: seq<Entry>, e: Entry, b: Best)
    requires AudioInvariant(p, b)
    ensures AudioInvariant(p + [e], Step(b, e))
  {
    var es := p + [e];
    assert forall j :: 0 <= j < |p| ==> es[j] == p[j];
    if !(e.isVideo && e.bandwidth > b.videoBandwidth) && e.isAudio && e.bandwidth > b.audioBandwidth {
      assert es[|p|] == e;
    } else if b.audioBandwidth > 0 {
      var i :| && 0 <= i < |p| && p[i].isAudio && b.audioUrl == Some(Entities.Decode(p[i].rawUrl))
               && b.audioBandwidth == p[i].bandwidth
               && (forall j :: 0 <= j < i && p[j].isAudio && !p[j].isVideo ==> p[j].bandwidth < p[i].bandwidth);
      assert es[i] == p[i];
    }
  }

  /** The invariant the loop keeps for audio. */
  lemma {:induction false} RunAudio(es: seq<Entry>)
    ensures AudioInvariant(es, Run(es))
    decreases |es|
  {
    if |es| > 0 {
      var p := es[..|es| - 1];
      var e := es[|es| - 1];
      assert p + [e] == es;
      RunAudio(p);
      AudioStep(p, e, Run(p));
    }
  }

  /**
   * The audio URL, when present, is the decoded BaseURL of an audio-classified
   * representation whose bandwidth is at least that of every representation in
   * an audio-only set; a representation in a set of both kinds that improves
   * the video choice is never taken for audio, so for those the promise is
   * weaker.
   */
  lemma SelectsAudio(sets: seq<AdaptationSet>)
    requires ParseDashManifest(sets).Some?
    ensures ParseDashManifest(sets).value.audioUrl.Some? ==>
              exists i :: && 0 <= i < |Entries(sets)| && Entries(sets)[i].isAudio
                          && ParseDashManifest(sets).value.audioUrl == Some(Entities.Decode(Entries(sets)[i].rawUrl))
                          && (forall j :: 0 <= j < |Entries(sets)| && Entries(sets)[j].isAudio && !Entries(sets)[j].isVideo ==>
                                Entries(sets)[j].bandwidth <= Entries(sets)[i].bandwidth)
    ensures (exists j :: 0 <= j < |Entries(sets)| && Entries(sets)[j].isAudio && !Entries(sets)[j].isVideo && Entries(sets)[j].bandwidth > 0)
              ==> ParseDashManifest(sets).value.audioUrl.Some?
  {
    RunAudio(Entries(sets));
  }

  /** An adaptation set of neither kind contributes nothing, wherever it stands. */
  lemma UnclassifiedSetIgnored(xs: seq<AdaptationSet>, a: AdaptationSet, ys: seq<AdaptationSet>)
    requires !IsVideoSet(a) && !IsAudioSet(a)
    ensures ParseDashManifest(xs + [a] + ys) == ParseDashManifest(xs + ys)
  {
    EntriesAppend(xs + [a], ys);
    EntriesAppend(xs, [a]);
    EntriesAppend(xs, ys);
    assert Entries([a]) == [];
    assert Entries(xs + [a]) == Entries(xs);
  }

  /** A representation without a BaseURL contributes nothing. */
  lemma RepresentationWithoutBaseUrlIgnored(reps1: seq<Representation>, r: Representation, reps2: seq<Representation>, v: bool, au: bool)
    requires !HasBaseUrl(r)
    ensures RepresentationEntries(reps1 + [r] + reps2, v, au) == RepresentationEntries(reps1 + reps2, v, au)
    decreases |reps1|
  {
    if |reps1| == 0 {
      assert reps1 + [r] + reps2 == [r] + reps2;
      assert ([r] + reps2)[1..] == reps2;
      assert reps1 + reps2 == reps2;
    } else {
      assert (reps1 + [r] + reps2)[1..] == reps1[1..] + [r] + reps2;
      assert (reps1 + reps2)[1..] == reps1[1..] + reps2;
      RepresentationWithoutBaseUrlIgnored(reps1[1..], r, reps2, v, au);
    }
  }

  // ---------------------------------------------------------------------------
  // Worked examples.
  // ---------------------------------------------------------------------------

  /**
   * Video bandwidths 100, 250, 250, 80 and audio bandwidths 64, 128: the first
   * 250 video URL and the 128 audio URL are chosen.
   */
  lemma ExampleBestPair()
    ensures
      var es := [Entry(true, false, 100, "v1"), Entry(true, false, 250, "v2"), Entry(true, false, 250, "v3"),
                 Entry(true, false, 80, "v4"), Entry(false, true, 64, "a1"), Entry(false, true, 128, "a2")];
      Run(es) == Best(Some("v2"), 250, Some("a2"), 128)
  {
    var e1, e2, e3 := Entry(true, false, 100, "v1"), Entry(true, false, 250, "v2"), Entry(true, false, 250, "v3");
    var e4, e5, e6 := Entry(true, false, 80, "v4"), Entry(false, true, 64, "a1"), Entry(false, true, 128, "a2");
    Entities.DecodeWithoutAmpersand("v1", 0);
    Entities.DecodeWithoutAmpersand("v2", 0);
    Entities.DecodeWithoutAmpersand("a1", 0);
    Entities.DecodeWithoutAmpersand("a2", 0);
    var s1 := [] + [e1];
    var s2 := s1 + [e2];
    var s3 := s2 + [e3];
    var s4 := s3 + [e4];
    var s5 := s4 + [e5];
    var s6 := s5 + [e6];
    var b1 := Best(Some("v1"), 100, None, 0);
    var b2 := Best(Some("v2"), 250, None, 0);
    var b5 := Best(Some("v2"), 250, Some("a1"), 64);
    RunSnoc([], e1);
    assert Run([]) == Start;
    assert Step(Start, e1) == b1;
    RunSnoc(s1, e2);
    assert Step(b1, e2) == b2;
    RunSnoc(s2, e3);
    assert Step(b2, e3) == b2;
    RunSnoc(s3, e4);
    assert Step(b2, e4) == b2;
    RunSnoc(s4, e5);
    assert Step(b2, e5) == b5;
    RunSnoc(s5, e6);
    assert Step(b5, e6) == Best(Some("v2"), 250, Some("a2"), 128);
    assert s6 == [e1, e2, e3, e4, e5, e6];
  }

  /** Visiting one more entry is one more loop iteration. */
  lemma RunSnoc(p: seq<Entry>, e: Entry)
    ensures Run(p + [e]) == Step(Run(p), e)
  {
    assert (p + [e])[..|p|] == p;
  }

  /** In a set of both kinds, a representation that improves the video choice is not taken for audio. */
  lemma ExampleBothKinds()
    ensures Run([Entry(true, true, 100, "x"), Entry(true, true, 200, "y")]) == Best(Some("y"), 200, None, 0)
  {
    Entities.DecodeWithoutAmpersand("x", 0);
    Entities.DecodeWithoutAmpersand("y", 0);
  }
}

=== FILE: entities.dfy ===
/**
 * Decoding of the XML predefined entities in a DASH BaseURL
 * (PostDownloader.parseDashManifest): `&amp;`, `&lt;`, `&gt;`, `&quot;`, `&#39;`
 * are each replaced globally, one entity after the other, in that order.
 */
module Entities {
  import opened Text

  /** The entity texts in the order the decoder replaces them. */
  const EntityText: seq<string> := ["&amp;", "&lt;", "&gt;", "&quot;", "&#39;"]
  /** The character each entity stands for. */
  const EntityChar: seq<char> := ['&', '<', '>', '"', '\'']
  const EntityCount := 5

  /** Runs the replacement stages `k`, `k+1`, ... of the decoder on `s`. */
  function DecodeFrom(s: string, k: nat): string
    requires k <= EntityCount
    decreases EntityCount - k
  {
    if k == EntityCount then s
    else DecodeFrom(ReplaceAll(s, EntityText[k], [EntityChar[k]]), k + 1)
  }

  /** The decoder applied to every BaseURL before it is compared or returned. */
  function Decode(s: string): string {
    DecodeFrom(s, 0)
  }

  /** A non-empty URL never decodes to the empty string (so the source's truthiness test on it means "present"). */
  lemma {:induction false} DecodeKeepsNonEmpty(s: string, k: nat)
    requires k <= EntityCount
    requires |s| > 0
    ensures |DecodeFrom(s, k)| > 0
    decreases EntityCount - k
  {
    if k < EntityCount {
      DecodeKeepsNonEmpty(ReplaceAll(s, EntityText[k], [EntityChar[k]]), k + 1);
    }
  }

  /** Decoding never lengthens a URL. */
  lemma {:induction false} DecodeNeverGrows(s: string, k: nat)
    requires k <= EntityCount
    ensures |DecodeFrom(s, k)| <= |s|
    decreases EntityCount - k
  {
    if k < EntityCount {
      DecodeNeverGrows(ReplaceAll(s, EntityText[k], [EntityChar[k]]), k + 1);
    }
  }

  /** A URL with no '&' is returned unchanged. */
  lemma {:induction false} DecodeWithoutAmpersand(s: string, k: nat)
    requires k <= EntityCount
    requires '&' !in s
    ensures DecodeFrom(s, k) == s
    decreases EntityCount - k
  {
    if k < EntityCount {
      NoFirstCharNoMatch(s, EntityText[k]);
      DecodeWithoutAmpersand(s, k + 1);
    }
  }

  /** Because `&amp;` goes first, an escaped entity text is decoded twice. */
  lemma DoubleDecoding()
    ensures Decode("&amp;lt;") == "<"
  {
    var s0 := "&amp;lt;";
    assert StartsWith(s0, "&amp;");
    assert s0[5..] == "lt;";
    NoFirstCharNoMatch("lt;", "&amp;");
    var s1 := ReplaceAll(s0, "&amp;", "&");
    assert s1 == "&lt;";
    assert StartsWith(s1, "&lt;");
    assert s1[4..] == [];
    var s2 := ReplaceAll(s1, "&lt;", "<");
    assert s2 == "<";
    NoFirstCharNoMatch(s2, "&gt;");
    NoFirstCharNoMatch(s2, "&quot;");
    NoFirstCharNoMatch(s2, "&#39;");
  }

  // ---------------------------------------------------------------------------
  // The XML escaping the decoder is meant to undo, and when it does.
  // ---------------------------------------------------------------------------

  /** Position of `c` in EntityChar, or EntityCount for an ordinary character. */
  function Level(c: char): (n: nat)
    ensures n <= EntityCount
    ensures n < EntityCount ==> EntityChar[n] == c
  {
    if c == '&' then 0
    else if c == '<' then 1
    else if c == '>' then 2
    else if c == '"' then 3
    else if c == '\'' then 4
    else 5
  }

  /** Escapes the special characters whose level is at least `k`; lower ones stay literal. */
  function EscapeFrom(s: string, k: nat): string
    decreases |s|
  {
    if |s| == 0 then []
    else
      var c := s[0];
      (if k <= Level(c) < EntityCount then EntityText[Level(c)] else [c]) + EscapeFrom(s[1..], k)
  }

  /** XML escaping of a URL as it would be written inside `<BaseURL>`. */
  function Escape(s: string): string {
    EscapeFrom(s, 0)
  }

  /** `s` contains none of the entity texts other than `&amp;`. */
  predicate NoEntityText(s: string) {
    forall k :: 1 <= k < EntityCount ==> !Contains(s, EntityText[k])
  }

  lemma {:induction false} EscapeFromTop(s: string)
    ensures EscapeFrom(s, EntityCount) == s
    decreases |s|
  {
    if |s| > 0 {
      EscapeFromTop(s[1..]);
      assert [s[0]] + s[1..] == s;
    }
  }

  /** The escaped text starts with '&' or with the original first character, copied literally. */
  lemma EscapeHead(r: string, k: nat)
    requires |r| > 0
    ensures |EscapeFrom(r, k)| > 0
    ensures EscapeFrom(r, k)[0] == '&'
         || EscapeFrom(r, k) == [r[0]] + EscapeFrom(r[1..], k)
  {
    if k <= Level(r[0]) < EntityCount {
      EntityShape(Level(r[0]));
    }
  }

  /** If the partly escaped text starts with a word free of special characters, so did the original. */
  lemma {:induction false} EscapedPrefix(r: string, k: nat, w: string)
    requires forall i :: 0 <= i < |w| ==> Level(w[i]) == EntityCount
    requires StartsWith(EscapeFrom(r, k), w)
    ensures StartsWith(r, w)
    decreases |w|
  {
    if |w| > 0 {
      var e := EscapeFrom(r, k);
      assert |r| > 0;
      var c := r[0];
      EscapeHead(r, k);
      assert e[0] == w[0];
      assert e == [c] + EscapeFrom(r[1..], k);
      assert w[0] == c;
      assert e[1..] == EscapeFrom(r[1..], k);
      assert StartsWith(EscapeFrom(r[1..], k), w[1..]) by {
        assert e[1..][..|w| - 1] == e[..|w|][1..];
      }
      EscapedPrefix(r[1..], k, w[1..]);
      assert r[..|w|] == [c] + r[1..][..|w| - 1];
    }
  }

  /** Every entity text is '&', then at least three ordinary characters; the second characters differ. */
  lemma EntityShape(k: nat)
    requires k < EntityCount
    ensures |EntityText[k]| >= 4 && EntityText[k][0] == '&'
    ensures forall i :: 1 <= i < |EntityText[k]| ==> Level(EntityText[k][i]) == EntityCount
    ensures forall j :: 0 <= j < EntityCount && j != k ==> EntityText[j][1] != EntityText[k][1]
  {
  }

  /** The decoder's stage `k` on an escaped character: its own entity becomes the character, another entity is kept. */
  lemma StageOnEntity(j: nat, k: nat, tail: string)
    requires j < EntityCount && k < EntityCount
    ensures ReplaceAll(EntityText[j] + tail, EntityText[k], [EntityChar[k]])
         == (if j == k then [EntityChar[k]] else EntityText[j]) + ReplaceAll(tail, EntityText[k], [EntityChar[k]])
  {
    if j == k {
      StageOnOwnEntity(k, tail);
    } else {
      StageOnOtherEntity(j, k, tail);
    }
  }

  lemma StageOnOwnEntity(k: nat, tail: string)
    requires k < EntityCount
    ensures ReplaceAll(EntityText[k] + tail, EntityText[k], [EntityChar[k]])
         == [EntityChar[k]] + ReplaceAll(tail, EntityText[k], [EntityChar[k]])
  {
    var pat := EntityText[k];
    EntityShape(k);
    assert StartsWith(pat + tail, pat);
    assert (pat + tail)[|pat|..] == tail;
  }

  lemma StageOnOtherEntity(j: nat, k: nat, tail: string)
    requires j < EntityCount && k < EntityCount && j != k
    ensures ReplaceAll(EntityText[j] + tail, EntityText[k], [EntityChar[k]])
         == EntityText[j] + ReplaceAll(tail, EntityText[k], [EntityChar[k]])
  {
    var chunk := EntityText[j];
    var pat := EntityText[k];
    EntityShape(j);
    EntityShape(k);
    assert chunk[1] != pat[1];
    assert '&' !in chunk[1..] by {
      forall i | 0 <= i < |chunk[1..]|
        ensures chunk[1..][i] != '&'
      {
        assert Level(chunk[i + 1]) == EntityCount;
      }
    }
    ReplaceAllSkipsMismatch(chunk, tail, pat, [EntityChar[k]]);
  }

  /** The decoder's stage `k` on a literal character that does not start an occurrence of entity `k`. */
  lemma StageOnLiteral(c: char, tail: string, k: nat)
    requires k < EntityCount
    requires !StartsWith([c] + tail, EntityText[k])
    ensures ReplaceAll([c] + tail, EntityText[k], [EntityChar[k]]) == [c] + ReplaceAll(tail, EntityText[k], [EntityChar[k]])
  {
    assert ([c] + tail)[1..] == tail;
  }

  /** A literal '&' of a URL without entity text never starts a spurious match in the partly escaped text. */
  lemma LiteralAmpersandNoMatch(s: string, k: nat)
    requires 1 <= k < EntityCount
    requires |s| > 0 && s[0] == '&'
    requires NoEntityText(s)
    ensures !StartsWith([s[0]] + EscapeFrom(s[1..], k), EntityText[k])
  {
    var pat := EntityText[k];
    var tail := EscapeFrom(s[1..], k);
    EntityShape(k);
    var w := pat[1..];
    if StartsWith([s[0]] + tail, pat) {
      assert StartsWith(tail, w) by {
        assert tail[..|w|] == ([s[0]] + tail)[..|pat|][1..];
      }
      EscapedPrefix(s[1..], k, w);
      assert false;
    }
  }

  lemma NoEntityTextTail(s: string)
    requires |s| > 0
    requires NoEntityText(s)
    ensures NoEntityText(s[1..])
  {
    forall j | 1 <= j < EntityCount
      ensures !Contains(s[1..], EntityText[j])
    {
      assert !Contains(s, EntityText[j]);
    }
  }

  /** Stage `k` of the decoder undoes exactly the escaping of level `k`. */
  lemma {:induction false} StageUndoesLevel(s: string, k: nat)
    requires k < EntityCount
    requires NoEntityText(s)
    ensures ReplaceAll(EscapeFrom(s, k), EntityText[k], [EntityChar[k]]) == EscapeFrom(s, k + 1)
    decreases |s|
  {
    if |s| > 0 {
      var c := s[0];
      var r := s[1..];
      NoEntityTextTail(s);
      StageUndoesLevel(r, k);
      var tail := EscapeFrom(r, k);
      if k <= Level(c) < EntityCount {
        StageOnEntity(Level(c), k, tail);
      } else {
        if c == '&' {
          LiteralAmpersandNoMatch(s, k);
        } else {
          EntityShape(k);
          assert ([c] + tail)[0] != EntityText[k][0];
        }
        StageOnLiteral(c, tail, k);
      }
    }
  }

  lemma {:induction false} DecodeFromUndoesEscape(s: string, k: nat)
    requires k <= EntityCount
    requires NoEntityText(s)
    ensures DecodeFrom(EscapeFrom(s, k), k) == s
    decreases EntityCount - k
  {
    if k == EntityCount {
      EscapeFromTop(s);
    } else {
      StageUndoesLevel(s, k);
      DecodeFromUndoesEscape(s, k + 1);
    }
  }

  /**
   * Round trip: an escaped URL decodes back to itself whenever the URL does not
   * itself contain the text of an entity other than `&amp;`.
   */
  lemma DecodeUndoesEscape(s: string)
    requires NoEntityText(s)
    ensures Decode(Escape(s)) == s
  {
    DecodeFromUndoesEscape(s, 0);
  }

  /** Text without special characters is not changed by escaping. */
  lemma {:induction false} EscapeOrdinary(s: string, k: nat)
    requires forall i :: 0 <= i < |s| ==> Level(s[i]) == EntityCount
    ensures EscapeFrom(s, k) == s
    decreases |s|
  {
    if |s| > 0 {
      EscapeOrdinary(s[1..], k);
      assert [s[0]] + s[1..] == s;
    }
  }

  /** The round trip fails for a URL that literally contains `&lt;`. */
  lemma RoundTripFailsOnEntityText()
    ensures Escape("&lt;") == "&amp;lt;"
    ensures Decode(Escape("&lt;")) == "<"
  {
    var s := "&lt;";
    assert s == ['&'] + s[1..];
    assert s[1..] == "lt;";
    EscapeOrdinary("lt;", 0);
    assert Escape(s) == "&amp;" + "lt;";
    DoubleDecoding();
  }
}

=== FILE: json.dfy ===
/**
 * The parsed JSON the manifest locator walks, and its serialisation as
 * `JSON.stringify` writes it (character escaping is not modelled).
 *
 * A member list holds an object's properties in the order a `for...in` loop
 * enumerates them, with distinct keys, as `JSON.parse` leaves them.
 */
module Json {
  import opened Wrappers
  import opened Text

  datatype Json =
    | Null
    | Bool(b: bool)
    | Num(text: string)          // a number, by its serialised text
    | Str(s: string)
    | Arr(items: seq<Json>)
    | Obj(members: seq<Member>)

  datatype Member = Member(key: string, value: Json)

  /** `typeof obj === 'object'` and truthy: arrays and objects. */
  predicate IsObject(j: Json) {
    j.Arr? || j.Obj?
  }

  function Quote(s: string): string {
    "\"" + s + "\""
  }

  /** Parts joined with ',' between them. */
  function JoinComma(parts: seq<string>): string
    decreases |parts|
  {
    if |parts| == 0 then ""
    else if |parts| == 1 then parts[0]
    else parts[0] + "," + JoinComma(parts[1..])
  }

  function MemberText(key: string, valueText: string): string {
    Quote(key) + ":" + valueText
  }

  function Stringify(j: Json): string
    decreases j
  {
    match j
    case Null => "null"
    case Bool(b) => if b then "true" else "false"
    case Num(t) => t
    case Str(s) => Quote(s)
    case Arr(items) =>
      "[" + JoinComma(seq(|items|, i requires 0 <= i < |items| => Stringify(items[i]))) + "]"
    case Obj(ms) =>
      "{" + JoinComma(seq(|ms|, i requires 0 <= i < |ms| => MemberText(ms[i].key, Stringify(ms[i].value)))) + "}"
  }

  /** `obj[key]` on an object: the value of the member with that key, if any. */
  function Lookup(ms: seq<Member>, key: string): (r: Option<Json>)
    ensures r.Some? <==> exists i :: 0 <= i < |ms| && ms[i].key == key
    ensures r.Some? ==> exists i :: 0 <= i < |ms| && ms[i].key == key && ms[i].value == r.value
    decreases |ms|
  {
    if |ms| == 0 then None
    else if ms[0].key == key then Some(ms[0].value)
    else Lookup(ms[1..], key)
  }

  /** A substring of one part is a substring of the joined text. */
  lemma {:induction false} JoinContainsPart(parts: seq<string>, i: nat, w: string)
    requires i < |parts|
    requires Contains(parts[i], w)
    ensures Contains(JoinComma(parts), w)
    decreases |parts|
  {
    if |parts| == 1 {
    } else if i == 0 {
      ContainsInside("", parts[0], "," + JoinComma(parts[1..]), w);
      assert "" + parts[0] + ("," + JoinComma(parts[1..])) == JoinComma(parts);
    } else {
      JoinContainsPart(parts[1..], i - 1, w);
      ContainsInside(parts[0] + ",", JoinComma(parts[1..]), "", w);
      assert parts[0] + "," + JoinComma(parts[1..]) + "" == JoinComma(parts);
    }
  }

  /** `JSON.stringify(obj).includes(w)` sees every element of an array. */
  lemma ItemTextInside(items: seq<Json>, i: nat, w: string)
    requires i < |items|
    requires Contains(Stringify(items[i]), w)
    ensures Contains(Stringify(Arr(items)), w)
  {
    var parts := seq(|items|, k requires 0 <= k < |items| => Stringify(items[k]));
    assert parts[i] == Stringify(items[i]);
    JoinContainsPart(parts, i, w);
    ContainsInside("[", JoinComma(parts), "]", w);
  }

  /** ... and every member of an object, key and value text together. */
  lemma MemberTextInside(ms: seq<Member>, i: nat, w: string)
    requires i < |ms|
    requires Contains(MemberText(ms[i].key, Stringify(ms[i].value)), w)
    ensures Contains(Stringify(Obj(ms)), w)
  {
    var parts := seq(|ms|, k requires 0 <= k < |ms| => MemberText(ms[k].key, Stringify(ms[k].value)));
    assert parts[i] == MemberText(ms[i].key, Stringify(ms[i].value));
    JoinContainsPart(parts, i, w);
    ContainsInside("{", JoinComma(parts), "}", w);
  }

  lemma MemberValueInside(ms: seq<Member>, i: nat, w: string)
    requires i < |ms|
    requires Contains(Stringify(ms[i].value), w)
    ensures Contains(Stringify(Obj(ms)), w)
  {
    ContainsInside(Quote(ms[i].key) + ":", Stringify(ms[i].value), "", w);
    assert Quote(ms[i].key) + ":" + Stringify(ms[i].value) + "" == MemberText(ms[i].key, Stringify(ms[i].value));
    MemberTextInside(ms, i, w);
  }

  /** An object member `"key":"value"` with a string value shows up verbatim in the serialisation. */
  lemma StringMemberInside(ms: seq<Member>, i: nat)
    requires i < |ms| && ms[i].value.Str?
    ensures Contains(Stringify(Obj(ms)), MemberText(ms[i].key, Quote(ms[i].value.s)))
  {
    var w := MemberText(ms[i].key, Quote(ms[i].value.s));
    assert Stringify(ms[i].value) == Quote(ms[i].value.s);
    assert StartsWith(w, w);
    MemberTextInside(ms, i, w);
  }
}

=== FILE: manifest_locator.dfy ===
/**
 * The manifest locator (PostDownloader.findMatchingDashManifestWithScore and
 * PostDownloader.extractVideoDataFromArticle): a depth-bounded walk over the
 * parsed JSON of each page script, looking for objects with a string
 * `video_dash_manifest`, accepting one on a post-id match or a duration match,
 * scoring it, and keeping the strictly best candidate.
 *
 * Reading the duration out of the manifest (a regular expression plus
 * `parseFloat`) and splitting the manifest into adaptation sets are given as
 * functions in the context; durations are `real`.
 */
module ManifestLocator {
  import opened Wrappers
  import opened Text
  import opened Json
  import opened DashManifest

  /** Nodes deeper than this are not looked at. */
  const MaxDepth := 30
  const ManifestKey := "video_dash_manifest"
  const DurationTolerance: real := 0.1

  datatype MatchKind = ExactIdAndDuration | ExactIdOnly | IdMentioned | DurationOnly {
    predicate IsExact() {
      ExactIdAndDuration? || ExactIdOnly?
    }
  }

  datatype Match = Match(urls: StreamUrls, score: real, kind: MatchKind)

  datatype Context = Context(
    targetDuration: real,
    postId: Option<string>,
    durationOf: string -> Option<real>,          // mediaPresentationDuration="PT<n>S", parsed
    tokenize: string -> seq<AdaptationSet>)      // the manifest's adaptation sets

  function Abs(x: real): real {
    if x < 0.0 then -x else x
  }

  function Min(a: real, b: real): real {
    if a <= b then a else b
  }

  /** `postId && ...`: a null or empty id never matches. */
  predicate HasPostId(ctx: Context) {
    ctx.postId.Some? && |ctx.postId.value| > 0
  }

  /** The text `"key":"id"` searched for in the serialised subtree. */
  function IdField(key: string, id: string): string {
    MemberText(key, Quote(id))
  }

  /** The subtree carries the post id under `shortcode`, `code` or `pk`. */
  predicate HasExactPostId(j: Json, ctx: Context) {
    && HasPostId(ctx)
    && (|| Contains(Stringify(j), IdField("shortcode", ctx.postId.value))
        || Contains(Stringify(j), IdField("code", ctx.postId.value))
        || Contains(Stringify(j), IdField("pk", ctx.postId.value)))
  }

  /** The post id appears anywhere in the serialised subtree. */
  predicate MentionsPostId(j: Json, ctx: Context) {
    HasPostId(ctx) && Contains(Stringify(j), ctx.postId.value)
  }

  /** Exact-id candidates score in [99, 100]; the others at most 75. */
  predicate WellScored(m: Match) {
    && (m.kind.IsExact() ==> 99.0 <= m.score <= 100.0)
    && (m.kind.IdMentioned? ==> 74.0 < m.score <= 75.0)
    && (m.kind.DurationOnly? ==> 49.0 < m.score <= 50.0)
  }

  /** The manifest text of an object node: a non-empty string `video_dash_manifest`. */
  function ManifestOf(j: Json): Option<string> {
    if j.Obj? then
      match Lookup(j.members, ManifestKey)
      case Some(Str(m)) => if |m| > 0 then Some(m) else None
      case _ => None
    else None
  }

  /** The check the walk makes at one node, before looking at its children. */
  function NodeCandidate(j: Json, ctx: Context): (r: Option<Match>)
    ensures r.Some? ==> WellScored(r.value)
    ensures r.Some? <==>
              && ManifestOf(j).Some?
              && ctx.durationOf(ManifestOf(j).value).Some?
              && (HasExactPostId(j, ctx)
                  || Abs(ctx.durationOf(ManifestOf(j).value).value - ctx.targetDuration) < DurationTolerance)
              && ParseDashManifest(ctx.tokenize(ManifestOf(j).value)).Some?
    ensures r.Some? ==> r.value.urls == ParseDashManifest(ctx.tokenize(ManifestOf(j).value)).value
    ensures r.Some? ==> (r.value.kind.IsExact() <==> HasExactPostId(j, ctx))
  {
    match ManifestOf(j)
    case None => None
    case Some(manifest) =>
      match ctx.durationOf(manifest)
      case None => None
      case Some(duration) =>
        var diff := Abs(duration - ctx.targetDuration);
        var exact := HasExactPostId(j, ctx);
        if !(exact || diff < DurationTolerance) then None
        else
          match ParseDashManifest(ctx.tokenize(manifest))
          case None => None
          case Some(urls) =>
            if exact then
              var kind := if diff < DurationTolerance then ExactIdAndDuration else ExactIdOnly;
              Some(Match(urls, 100.0 - Min(diff * 0.1, 1.0), kind))
            else if MentionsPostId(j, ctx) then
              Some(Match(urls, 75.0 - diff * 10.0, IdMentioned))
            else
              Some(Match(urls, 50.0 - diff * 10.0, DurationOnly))
  }

  /** `if (result && (!bestMatch || result.score > bestMatch.score)) bestMatch = result`. */
  function Better(best: Option<Match>, r: Option<Match>): Option<Match> {
    if r.Some? && (best.None? || r.value.score > best.value.score) then r else best
  }

  predicate AllWellScored(acc: Option<Match>, rs: seq<Option<Match>>) {
    && (acc.Some? ==> WellScored(acc.value))
    && (forall i :: 0 <= i < |rs| && rs[i].Some? ==> WellScored(rs[i].value))
  }

  /** The loop over a node's children, starting from the node's own candidate. */
  function FoldResults(acc: Option<Match>, rs: seq<Option<Match>>): (r: Option<Match>)
    ensures AllWellScored(acc, rs) ==> (r.Some? ==> WellScored(r.value))
    decreases |rs|
  {
    if |rs| == 0 then acc else FoldResults(Better(acc, rs[0]), rs[1..])
  }

  /**
   * findMatchingDashManifestWithScore(obj, targetDuration, postId, depth):
   * null past the depth bound and for anything but arrays and objects.
   */
  function Walk(j: Json, ctx: Context, depth: nat): (r: Option<Match>)
    ensures depth > MaxDepth || !IsObject(j) ==> r.None?
    ensures r.Some? ==> WellScored(r.value)
    decreases j
  {
    if depth > MaxDepth then None
    else
      match j
      case Arr(items) =>
        FoldResults(None, seq(|items|, i requires 0 <= i < |items| => Walk(items[i], ctx, depth + 1)))
      case Obj(ms) =>
        FoldResults(NodeCandidate(j, ctx), seq(|ms|, i requires 0 <= i < |ms| => Walk(ms[i].value, ctx, depth + 1)))
      case _ => None
  }

  // ---------------------------------------------------------------------------
  // Reference: every accepted node of the subtree, in the order the walk visits them.
  // ---------------------------------------------------------------------------

  function OptionToSeq(m: Option<Match>): seq<Match> {
    if m.Some? then [m.value] else []
  }

  function Flatten(css: seq<seq<Match>>): seq<Match>
    decreases |css|
  {
    if |css| == 0 then [] else css[0] + Flatten(css[1..])
  }

  /** The candidates of the subtree in pre-order: a node before its children, children in order. */
  function Candidates(j: Json, ctx: Context, depth: nat): seq<Match>
    decreases j
  {
    if depth > MaxDepth then []
    else
      match j
      case Arr(items) =>
        Flatten(seq(|items|, i requires 0 <= i < |items| => Candidates(items[i], ctx, depth + 1)))
      case Obj(ms) =>
        OptionToSeq(NodeCandidate(j, ctx)) + Flatten(seq(|ms|, i requires 0 <= i < |ms| => Candidates(ms[i].value, ctx, depth + 1)))
      case _ => []
  }

  /** Candidate `i` has the largest score, and every earlier candidate a strictly smaller one. */
  ghost predicate IsFirstBest(ms: seq<Match>, i: int) {
    && 0 <= i < |ms|
    && (forall k :: 0 <= k < |ms| ==> ms[k].score <= ms[i].score)
    && (forall k :: 0 <= k < i ==> ms[k].score < ms[i].score)
  }

  function FoldMatches(acc: Option<Match>, ms: seq<Match>): Option<Match>
    decreases |ms|
  {
    if |ms| == 0 then acc else FoldMatches(Better(acc, Some(ms[0])), ms[1..])
  }

  lemma {:induction false} FoldMatchesAppend(acc: Option<Match>, a: seq<Match>, b: seq<Match>)
    ensures FoldMatches(acc, a + b) == FoldMatches(FoldMatches(acc, a), b)
    decreases |a|
  {
    if |a| > 0 {
      assert (a + b)[0] == a[0];
      assert (a + b)[1..] == a[1..] + b;
      FoldMatchesAppend(Better(acc, Some(a[0])), a[1..], b);
    } else {
      assert a + b == b;
    }
  }

  /** Keeping the strictly better of two is associative. */
  lemma BetterAssociative(x: Option<Match>, y: Option<Match>, z: Option<Match>)
    ensures Better(Better(x, y), z) == Better(x, Better(y, z))
  {
  }

  lemma {:induction false} FoldMatchesFrom(acc: Option<Match>, b: seq<Match>)
    ensures FoldMatches(acc, b) == Better(acc, FoldMatches(None, b))
    decreases |b|
  {
    if |b| > 0 {
      FoldMatchesFrom(Better(acc, Some(b[0])), b[1..]);
      FoldMatchesFrom(Some(b[0]), b[1..]);
      BetterAssociative(acc, Some(b[0]), FoldMatches(None, b[1..]));
    }
  }

  lemma {:induction false} FoldResultsFlatten(acc: Option<Match>, rs: seq<Option<Match>>, css: seq<seq<Match>>)
    requires |rs| == |css|
    requires forall i :: 0 <= i < |rs| ==> rs[i] == FoldMatches(None, css[i])
    ensures FoldResults(acc, rs) == FoldMatches(acc, Flatten(css))
    decreases |rs|
  {
    if |rs| > 0 {
      FoldMatchesFrom(acc, css[0]);
      FoldResultsFlatten(Better(acc, rs[0]), rs[1..], css[1..]);
      FoldMatchesAppend(acc, css[0], Flatten(css[1..]));
    }
  }

  /** The walk is the fold of the strict comparison over the pre-order candidates. */
  lemma {:induction false} WalkFoldsCandidates(j: Json, ctx: Context, depth: nat)
    ensures Walk(j, ctx, depth) == FoldMatches(None, Candidates(j, ctx, depth))
    decreases j
  {
    if depth <= MaxDepth {
      match j
      case Arr(items) =>
        var rs := seq(|items|, i requires 0 <= i < |items| => Walk(items[i], ctx, depth + 1));
        var css := seq(|items|, i requires 0 <= i < |items| => Candidates(items[i], ctx, depth + 1));
        forall i | 0 <= i < |items|
          ensures rs[i] == FoldMatches(None, css[i])
        {
          WalkFoldsCandidates(items[i], ctx, depth + 1);
        }
        FoldResultsFlatten(None, rs, css);
      case Obj(ms) =>
        var rs := seq(|ms|, i requires 0 <= i < |ms| => Walk(ms[i].value, ctx, depth + 1));
        var css := seq(|ms|, i requires 0 <= i < |ms| => Candidates(ms[i].value, ctx, depth + 1));
        forall i | 0 <= i < |ms|
          ensures rs[i] == FoldMatches(None, css[i])
        {
          WalkFoldsCandidates(ms[i].value, ctx, depth + 1);
        }
        var own := NodeCandidate(j, ctx);
        FoldResultsFlatten(own, rs, css);
        FoldMatchesAppend(None, OptionToSeq(own), Flatten(css));
      case _ =>
    }
  }

  /** Folding the strict comparison picks the first candidate of maximal score. */
  lemma {:induction false} FoldPicksFirstBest(ms: seq<Match>)
    ensures FoldMatches(None, ms).None? <==> |ms| == 0
    ensures FoldMatches(None, ms).Some? ==> exists i :: IsFirstBest(ms, i) && FoldMatches(None, ms).value == ms[i]
    decreases |ms|
  {
    if |ms| > 0 {
      var p := ms[..|ms| - 1];
      var x := ms[|ms| - 1];
      assert p + [x] == ms;
      FoldPicksFirstBest(p);
      FoldMatchesAppend(None, p, [x]);
      assert FoldMatches(None, ms) == Better(FoldMatches(None, p), Some(x));
      assert forall k :: 0 <= k < |p| ==> ms[k] == p[k];
      if |p| == 0 {
        assert IsFirstBest(ms, 0);
      } else {
        var i :| IsFirstBest(p, i) && FoldMatches(None, p).value == p[i];
        if x.score > p[i].score {
          assert IsFirstBest(ms, |ms| - 1);
        } else {
          assert IsFirstBest(ms, i);
        }
      }
    }
  }

  /**
   * The walk returns null exactly when the subtree (to depth 30) holds no
   * accepted node; otherwise it returns the first accepted node, in pre-order,
   * among those of highest score: a node beats its descendants and earlier
   * children beat later ones on equal scores.
   */
  lemma WalkSelectsFirstBest(j: Json, ctx: Context, depth: nat)
    ensures Walk(j, ctx, depth).None? <==> |Candidates(j, ctx, depth)| == 0
    ensures Walk(j, ctx, depth).Some? ==>
              exists i :: IsFirstBest(Candidates(j, ctx, depth), i) && Walk(j, ctx, depth).value == Candidates(j, ctx, depth)[i]
  {
    WalkFoldsCandidates(j, ctx, depth);
    FoldPicksFirstBest(Candidates(j, ctx, depth));
  }

  /** Every candidate respects the score bands. */
  lemma {:induction false} CandidatesWellScored(j: Json, ctx: Context, depth: nat)
    ensures forall m :: m in Candidates(j, ctx, depth) ==> WellScored(m)
    decreases j
  {
    if depth <= MaxDepth {
      match j
      case Arr(items) =>
        var css := seq(|items|, i requires 0 <= i < |items| => Candidates(items[i], ctx, depth + 1));
        forall i | 0 <= i < |css|
          ensures forall m :: m in css[i] ==> WellScored(m)
        {
          CandidatesWellScored(items[i], ctx, depth + 1);
        }
        FlattenWellScored(css);
      case Obj(ms) =>
        var css := seq(|ms|, i requires 0 <= i < |ms| => Candidates(ms[i].value, ctx, depth + 1));
        forall i | 0 <= i < |css|
          ensures forall m :: m in css[i] ==> WellScored(m)
        {
          CandidatesWellScored(ms[i].value, ctx, depth + 1);
        }
        FlattenWellScored(css);
      case _ =>
    }
  }

  lemma {:induction false} FlattenWellScored(css: seq<seq<Match>>)
    requires forall i :: 0 <= i < |css| ==> forall m :: m in css[i] ==> WellScored(m)
    ensures forall m :: m in Flatten(css) ==> WellScored(m)
    decreases |css|
  {
    if |css| > 0 {
      FlattenWellScored(css[1..]);
    }
  }

  /** With strict comparison and the score bands, one exact-id candidate anywhere makes the result exact. */
  lemma ExactIdOutranks(ms: seq<Match>, k: int)
    requires forall m :: m in ms ==> WellScored(m)
    requires 0 <= k < |ms| && ms[k].kind.IsExact()
    ensures FoldMatches(None, ms).Some? && FoldMatches(None, ms).value.kind.IsExact()
  {
    FoldPicksFirstBest(ms);
    var i :| IsFirstBest(ms, i) && FoldMatches(None, ms).value == ms[i];
    assert ms[k] in ms && ms[i] in ms;
  }

  lemma ExactIdWinsInSubtree(j: Json, ctx: Context, depth: nat, k: int)
    requires 0 <= k < |Candidates(j, ctx, depth)| && Candidates(j, ctx, depth)[k].kind.IsExact()
    ensures Walk(j, ctx, depth).Some? && Walk(j, ctx, depth).value.kind.IsExact()
  {
    CandidatesWellScored(j, ctx, depth);
    WalkFoldsCandidates(j, ctx, depth);
    ExactIdOutranks(Candidates(j, ctx, depth), k);
  }

  // ---------------------------------------------------------------------------
  // The id test searches the whole subtree.
  // ---------------------------------------------------------------------------

  /** An object with a member `shortcode`, `code` or `pk` whose string value is the post id matches exactly. */
  lemma IdMemberMatches(ms: seq<Member>, i: nat, ctx: Context)
    requires HasPostId(ctx)
    requires i < |ms| && ms[i].key in ["shortcode", "code", "pk"] && ms[i].value == Str(ctx.postId.value)
    ensures HasExactPostId(Obj(ms), ctx)
  {
    StringMemberInside(ms, i);
  }

  /** If an element of an array matches exactly, so does the array. */
  lemma ExactIdFromItem(items: seq<Json>, i: nat, ctx: Context)
    requires i < |items| && HasExactPostId(items[i], ctx)
    ensures HasExactPostId(Arr(items), ctx)
  {
    var id := ctx.postId.value;
    if Contains(Stringify(items[i]), IdField("shortcode", id)) {
      ItemTextInside(items, i, IdField("shortcode", id));
    } else if Contains(Stringify(items[i]), IdField("code", id)) {
      ItemTextInside(items, i, IdField("code", id));
    } else {
      ItemTextInside(items, i, IdField("pk", id));
    }
  }

  /** If a member value of an object matches exactly, so does the object. */
  lemma ExactIdFromMember(ms: seq<Member>, i: nat, ctx: Context)
    requires i < |ms| && HasExactPostId(ms[i].value, ctx)
    ensures HasExactPostId(Obj(ms), ctx)
  {
    var id := ctx.postId.value;
    if Contains(Stringify(ms[i].value), IdField("shortcode", id)) {
      MemberValueInside(ms, i, IdField("shortcode", id));
    } else if Contains(Stringify(ms[i].value), IdField("code", id)) {
      MemberValueInside(ms, i, IdField("code", id));
    } else {
      MemberValueInside(ms, i, IdField("pk", id));
    }
  }

  // ---------------------------------------------------------------------------
  // Across the page's scripts.
  // ---------------------------------------------------------------------------

  /** A `<script>` element: its text and what `JSON.parse` makes of it (None when it throws). */
  datatype Script = Script(text: string, parsed: Option<Json>)

  /** The result of one script, if it passes the cheap text filter and parses. */
  function ScriptMatch(s: Script, ctx: Context): Option<Match> {
    if Contains(s.text, ManifestKey) && s.parsed.Some? then Walk(s.parsed.value, ctx, 0) else None
  }

  /** The `matches` array, in document order. */
  function ScriptMatches(scripts: seq<Script>, ctx: Context): (ms: seq<Match>)
    ensures forall m :: m in ms ==> WellScored(m)
    ensures forall m :: m in ms ==> exists i :: 0 <= i < |scripts| && ScriptMatch(scripts[i], ctx) == Some(m)
    ensures forall i :: 0 <= i < |scripts| && ScriptMatch(scripts[i], ctx).Some? ==> ScriptMatch(scripts[i], ctx).value in ms
    ensures |ms| <= |scripts|
    decreases |scripts|
  {
    if |scripts| == 0 then []
    else
      var rest := ScriptMatches(scripts[1..], ctx);
      assert forall i :: 1 <= i < |scripts| ==> scripts[i] == scripts[1..][i - 1];
      OptionToSeq(ScriptMatch(scripts[0], ctx)) + rest
  }

  /**
   * extractVideoDataFromArticle: null when no script matched; otherwise the
   * URLs of the head of the matches stably sorted by descending score, that
   * is, of the first match of highest score.
   */
  function ExtractVideoData(scripts: seq<Script>, ctx: Context): (r: Option<StreamUrls>)
    ensures r.None? <==> |ScriptMatches(scripts, ctx)| == 0
    ensures r.Some? ==>
              exists i :: IsFirstBest(ScriptMatches(scripts, ctx), i) && r.value == ScriptMatches(scripts, ctx)[i].urls
  {
    var ms := ScriptMatches(scripts, ctx);
    FoldPicksFirstBest(ms);
    var best := FoldMatches(None, ms);
    if best.None? then None else Some(best.value.urls)
  }

  /** A script with an exact-id match beats every script without one. */
  lemma ExactIdWinsAcrossScripts(scripts: seq<Script>, ctx: Context, k: int)
    requires 0 <= k < |ScriptMatches(scripts, ctx)| && ScriptMatches(scripts, ctx)[k].kind.IsExact()
    ensures ExtractVideoData(scripts, ctx).Some?
    ensures exists i :: && 0 <= i < |ScriptMatches(scripts, ctx)|
                        && ScriptMatches(scripts, ctx)[i].kind.IsExact()
                        && ExtractVideoData(scripts, ctx).value == ScriptMatches(scripts, ctx)[i].urls
  {
    var ms := ScriptMatches(scripts, ctx);
    ExactIdOutranks(ms, k);
    FoldPicksFirstBest(ms);
    var i :| IsFirstBest(ms, i) && FoldMatches(None, ms).value == ms[i];
  }
}

=== FILE: message_handler.dfy ===
/**
 * The background router (BackgroundMessageHandler.ts): which messages it
 * answers, the tab that receives merge progress, the merge request's round
 * trip through the offscreen document, and the install/update listener.
 * Browser calls are inputs: what the offscreen document answers, whether a
 * call throws and with which message.
 */
module MessageHandler {
  import opened Wrappers
  import PostActions

  /** `message.type`: a string, a number (the DownloadType enum), or missing. */
  datatype MessageType = Named(name: string) | Code(code: int) | Untyped

  /** DownloadType.ffmpegMerge and DownloadType.ffmpegProgress. */
  const MergeCode := 0
  const ProgressCode := 1

  /** Types the offscreen document sends and receives. */
  const OffscreenMerge := "FFMPEG_MERGE"
  const OffscreenProgress := "FFMPEG_PROGRESS"

  /**
   * A message as the router reads it. Fields the sender left out are None;
   * the merge fields are those of the content script's merge request.
   */
  datatype Message = Message(
    kind: MessageType,
    progress: Option<real>,
    videoUrl: Option<string>,
    audioUrl: Option<string>,
    outputFileName: Option<string>,
    whatsappMode: Option<bool>)

  datatype Tab = Tab(id: Option<int>)
  datatype Sender = Sender(tab: Option<Tab>)

  /** currentProcessingTabId. */
  datatype HandlerState = HandlerState(processingTab: Option<int>)

  const InitialState := HandlerState(None)

  /** Browser calls the router makes. */
  datatype Effect =
    | SendToTab(tab: int, kind: MessageType, progress: Option<real>)
    | CreateOffscreenDocument
    | SendToOffscreen(kind: MessageType, videoUrl: Option<string>, audioUrl: Option<string>,
                      outputFileName: Option<string>, whatsappMode: Option<bool>)
    | StartDownload(url: Option<string>, fileName: string)
    | OpenOptionsPage

  /** What the listener resolves to: undefined (another listener may answer), or the merge result. */
  datatype Reply = NoReply | Succeeded | Failed(error: string)

  /** A truthy number: present and not zero. */
  predicate Truthy(id: Option<int>) {
    id.Some? && id.value != 0
  }

  /** The offscreen document's answer: `{ success, blobUrl?, error? }`. */
  datatype OffscreenReply = OffscreenReply(success: bool, blobUrl: Option<string>, error: Option<string>)

  /**
   * How the browser calls of one merge turn out: whether looking up the
   * offscreen contexts rejects, and otherwise how many exist, whether
   * creating one throws, whether sending to it throws or what it answers,
   * and whether starting the download throws.
   */
  datatype MergeEnvironment = MergeEnvironment(
    contextsError: Option<string>,
    offscreenContexts: nat,
    createError: Option<string>,
    sendError: Option<string>,
    offscreenReply: Option<OffscreenReply>,
    downloadError: Option<string>)

  const DefaultMergeError := "Merge failed"

  /** The context lookup answers, and an offscreen document exists or creating one does not throw. */
  predicate OffscreenReady(env: MergeEnvironment) {
    env.contextsError.None? && (env.offscreenContexts > 0 || env.createError.None?)
  }

  /** The offscreen document took the request and reported success. */
  predicate MergeSucceeded(env: MergeEnvironment) {
    OffscreenReady(env) && env.sendError.None? && env.offscreenReply.Some? && env.offscreenReply.value.success
  }

  // ---------------------------------------------------------------------------
  // ensureOffscreenDocument and onUpdate.
  // ---------------------------------------------------------------------------

  /** ensureOffscreenDocument: create a document only when none exists. */
  function EnsureOffscreenDocument(contexts: nat): (effects: seq<Effect>)
    ensures CreateOffscreenDocument in effects <==> contexts == 0
    ensures |effects| <= 1
  {
    if contexts > 0 then [] else [CreateOffscreenDocument]
  }

  /** onUpdate: open the options page when the extension was updated, and on no other install event. */
  function OnUpdate(reason: string): (effects: seq<Effect>)
    ensures OpenOptionsPage in effects <==> reason == "update"
    ensures |effects| <= 1
  {
    if reason != "update" then [] else [OpenOptionsPage]
  }

  // ---------------------------------------------------------------------------
  // onMessage.
  // ---------------------------------------------------------------------------

  /** The routing decision, made on the type alone and in the source's order. */
  datatype Route = LeaveToOffscreen | ForwardProgress | Merge | Unhandled

  function RouteOf(kind: MessageType): (r: Route)
    ensures r == Merge <==> kind == Code(MergeCode)
    ensures r == ForwardProgress <==> kind == Named(OffscreenProgress)
    ensures r == LeaveToOffscreen <==> kind == Named(OffscreenMerge)
  {
    if kind == Named(OffscreenMerge) then LeaveToOffscreen
    else if kind == Named(OffscreenProgress) then ForwardProgress
    else if kind == Code(MergeCode) then Merge
    else Unhandled
  }

  /** Progress from the offscreen document goes to the recorded tab, as the numeric progress type with the same value. */
  function ForwardProgressTo(s: HandlerState, m: Message): (effects: seq<Effect>)
    ensures |effects| <= 1
    ensures |effects| == 1 <==> Truthy(s.processingTab)
    ensures |effects| == 1 ==> effects[0] == SendToTab(s.processingTab.value, Code(ProgressCode), m.progress)
  {
    if Truthy(s.processingTab) then [SendToTab(s.processingTab.value, Code(ProgressCode), m.progress)] else []
  }

  /** The first half of a merge request, before the first await: record the sender's tab when it has a truthy id. */
  function BeginMerge(s: HandlerState, sender: Sender): (s': HandlerState)
    ensures sender.tab.Some? && Truthy(sender.tab.value.id) ==> s'.processingTab == sender.tab.value.id
    ensures !(sender.tab.Some? && Truthy(sender.tab.value.id)) ==> s' == s
  {
    if sender.tab.Some? && Truthy(sender.tab.value.id) then HandlerState(sender.tab.value.id) else s
  }

  /** `${outputFileName}.mp4`, where a missing name prints as 'undefined'. */
  function MergedFileName(outputFileName: Option<string>): string {
    outputFileName.GetOr("undefined") + ".mp4"
  }

  /** `result?.error || 'Merge failed'`. */
  function OffscreenError(reply: Option<OffscreenReply>): (e: string)
    ensures |e| > 0
    ensures reply.Some? && reply.value.error.Some? && |reply.value.error.value| > 0 ==> e == reply.value.error.value
    ensures !(reply.Some? && reply.value.error.Some? && |reply.value.error.value| > 0) ==> e == DefaultMergeError
  {
    if reply.Some? && reply.value.error.Some? && |reply.value.error.value| > 0
    then reply.value.error.value else DefaultMergeError
  }

  /**
   * The second half of a merge request: make sure an offscreen document
   * exists, hand it the request, and download what it produced. Any failure,
   * thrown or reported, clears the tab and yields the error message; a
   * rejected context lookup fails before any browser call is made.
   */
  function FinishMerge(s: HandlerState, m: Message, env: MergeEnvironment): (res: (HandlerState, seq<Effect>, Reply))
    ensures res.0.processingTab.None?
    ensures res.2 != NoReply
    ensures res.2 == Succeeded <==> MergeSucceeded(env) && env.downloadError.None?
    ensures !MergeSucceeded(env) ==> forall e :: e in res.1 ==> !e.StartDownload?
    ensures MergeSucceeded(env) ==> StartDownload(env.offscreenReply.value.blobUrl, MergedFileName(m.outputFileName)) in res.1
    ensures OffscreenReady(env) ==>
              SendToOffscreen(Named(OffscreenMerge), m.videoUrl, m.audioUrl, m.outputFileName, m.whatsappMode) in res.1
    ensures !OffscreenReady(env) ==> forall e :: e in res.1 ==> !e.SendToOffscreen?
    ensures env.contextsError.Some? ==> res.1 == [] && res.2 == Failed(env.contextsError.value)
    ensures CreateOffscreenDocument in res.1 <==> env.contextsError.None? && env.offscreenContexts == 0
  {
    var ensure := EnsureOffscreenDocument(env.offscreenContexts);
    var cleared := HandlerState(None);
    if env.contextsError.Some? then (cleared, [], Failed(env.contextsError.value))
    else if env.offscreenContexts == 0 && env.createError.Some? then
      (cleared, ensure, Failed(env.createError.value))
    else
      var sent := ensure + [SendToOffscreen(Named(OffscreenMerge), m.videoUrl, m.audioUrl, m.outputFileName, m.whatsappMode)];
      if env.sendError.Some? then (cleared, sent, Failed(env.sendError.value))
      else if env.offscreenReply.None? || !env.offscreenReply.value.success then
        (cleared, sent, Failed(OffscreenError(env.offscreenReply)))
      else
        var started := sent + [StartDownload(env.offscreenReply.value.blobUrl, MergedFileName(m.outputFileName))];
        if env.downloadError.Some? then (cleared, started, Failed(env.downloadError.value))
        else (cleared, started, Succeeded)
  }

  /** onMessage, with a merge run to completion before the next message arrives. */
  function OnMessage(s: HandlerState, m: Message, sender: Sender, env: MergeEnvironment): (res: (HandlerState, seq<Effect>, Reply))
    ensures RouteOf(m.kind) != Merge ==> res.2 == NoReply && res.0 == s
    ensures RouteOf(m.kind) == Merge ==> res.2 != NoReply && res.0.processingTab.None?
  {
    match RouteOf(m.kind)
    case LeaveToOffscreen => (s, [], NoReply)
    case ForwardProgress => (s, ForwardProgressTo(s, m), NoReply)
    case Merge => FinishMerge(BeginMerge(s, sender), m, env)
    case Unhandled => (s, [], NoReply)
  }

  // ---------------------------------------------------------------------------
  // Properties across messages.
  // ---------------------------------------------------------------------------

  /** Requests meant for the offscreen document and unknown types are left unanswered and change nothing. */
  lemma UnansweredMessages(s: HandlerState, m: Message, sender: Sender, env: MergeEnvironment)
    requires m.kind == Named(OffscreenMerge) || (m.kind != Named(OffscreenProgress) && m.kind != Code(MergeCode))
    ensures OnMessage(s, m, sender, env) == (s, [], NoReply)
  {
  }

  /** The numeric progress type is not routed: only the offscreen document's progress is forwarded. */
  lemma NumericProgressIgnored(s: HandlerState, m: Message, sender: Sender, env: MergeEnvironment)
    requires m.kind == Code(ProgressCode)
    ensures OnMessage(s, m, sender, env) == (s, [], NoReply)
  {
  }

  /**
   * Progress reported while a merge is in flight reaches the tab that asked
   * for it, with the same value; a request from a tab without a truthy id gets
   * no progress unless an earlier request left one recorded.
   */
  lemma ProgressReachesRequester(s: HandlerState, sender: Sender, progress: Message, env: MergeEnvironment)
    requires sender.tab.Some? && Truthy(sender.tab.value.id)
    requires progress.kind == Named(OffscreenProgress)
    ensures OnMessage(BeginMerge(s, sender), progress, sender, env).1 ==
            [SendToTab(sender.tab.value.id.value, Code(ProgressCode), progress.progress)]
  {
  }

  /** After a merge, finished either way, progress is no longer forwarded anywhere. */
  lemma NoProgressAfterMerge(s: HandlerState, m: Message, sender: Sender, env: MergeEnvironment, later: Message)
    requires RouteOf(m.kind) == Merge
    requires later.kind == Named(OffscreenProgress)
    ensures OnMessage(OnMessage(s, m, sender, env).0, later, sender, env).1 == []
  {
  }

  /** A reported failure, or no answer at all, fails with the offscreen error or 'Merge failed' and starts no download. */
  lemma FailedMergeStartsNoDownload(s: HandlerState, m: Message, env: MergeEnvironment)
    requires OffscreenReady(env) && env.sendError.None?
    requires env.offscreenReply.None? || !env.offscreenReply.value.success
    ensures FinishMerge(s, m, env).2 == Failed(OffscreenError(env.offscreenReply))
    ensures forall e :: e in FinishMerge(s, m, env).1 ==> !e.StartDownload?
    ensures env.offscreenReply.None? ==> FinishMerge(s, m, env).2 == Failed(DefaultMergeError)
  {
  }

  /** A successful merge downloads the blob under the requested name plus '.mp4' and reports success. */
  lemma SuccessfulMergeDownloads(s: HandlerState, m: Message, env: MergeEnvironment, name: string)
    requires MergeSucceeded(env) && env.downloadError.None?
    requires m.outputFileName == Some(name)
    ensures FinishMerge(s, m, env).2 == Succeeded
    ensures StartDownload(env.offscreenReply.value.blobUrl, name + ".mp4") in FinishMerge(s, m, env).1
  {
  }

  /** The content script sees a failure as 'Merge failed: ' followed by the router's error text. */
  lemma FailureReachesTheUser(s: HandlerState, m: Message, sender: Sender, env: MergeEnvironment)
    requires RouteOf(m.kind) == Merge
    requires OnMessage(s, m, sender, env).2.Failed?
    requires |OnMessage(s, m, sender, env).2.error| > 0
    ensures var e := OnMessage(s, m, sender, env).2.error;
            PostActions.MergeResultNotice(Some(PostActions.MergeReply(false, Some(e)))) ==
            PostActions.Notice(PostActions.MergeFailedPrefix + e, PostActions.Warn)
  {
  }

  /**
   * A merge request whose context lookup rejects (a browser without that
   * API, say) is answered with the rejection's message: the tab is cleared,
   * no document is created, nothing reaches the offscreen document and no
   * download starts.
   */
  lemma ContextLookupFailureCallsNothing(s: HandlerState, m: Message, sender: Sender, env: MergeEnvironment)
    requires RouteOf(m.kind) == Merge
    requires env.contextsError.Some?
    ensures OnMessage(s, m, sender, env) == (HandlerState(None), [], Failed(env.contextsError.value))
  {
  }
}

=== FILE: post_actions.dfy ===
/**
 * The small decisions of the post downloader (PostDownloader.ts): routing a
 * click on the download control, choosing the carousel video, the retry
 * schedule while the manifest loads, the once-only auto-download, and the
 * guard in front of inserting a control.
 */
module PostActions {
  import opened Wrappers
  import opened PostIds
  import opened DashManifest
  import opened Text

  // ---------------------------------------------------------------------------
  // Click routing (handleDownloadButtonClick).
  // ---------------------------------------------------------------------------

  /** `img_index` in the query: absent, or present with `Number(text)` when that is an integer. */
  datatype ImgIndex = NoIndex | Index(number: Option<int>)

  /** Where the page is when the control is clicked. */
  datatype PageContext = PageContext(
    pathname: string,
    dialogOpen: bool,        // a div[role="dialog"] exists
    imgIndex: ImgIndex,
    videoCount: nat)         // videos under main[role="main"]

  datatype ClickAction =
    | OpenInNewTab(url: string)      // window.open(..., '_blank')
    | WarnNoPostId
    | DownloadVideo(index: nat)      // downloadVideoWithMerge on that video
    | WarnNoVideo

  const DetailOrigin := "https://www.instagram.com"
  const AutoDownloadQuery := "?igdl=1"

  /** The detail-page path of a post. */
  function DetailPath(id: string): string {
    "/p/" + id + "/"
  }

  /** The URL the feed opens for a post: its detail page with the auto-download marker. */
  function DetailUrl(id: string): string {
    DetailOrigin + DetailPath(id) + AutoDownloadQuery
  }

  /**
   * The video a click on a detail page downloads: the first one without
   * `img_index`; with it, entry `img_index - 1` when there are fewer than three
   * videos and the second one otherwise.
   */
  function CarouselVideo(imgIndex: ImgIndex, count: nat): (r: Option<nat>)
    ensures r.Some? ==> r.value < count
    ensures imgIndex.NoIndex? ==> (r.Some? <==> count > 0) && (r.Some? ==> r.value == 0)
    ensures imgIndex.Index? && count >= 3 ==> r == Some(1)
    ensures imgIndex.Index? && count < 3 ==>
              (r.Some? <==> imgIndex.number.Some? && 1 <= imgIndex.number.value <= count)
    ensures imgIndex.Index? && count < 3 && r.Some? ==> r.value + 1 == imgIndex.number.value
  {
    match imgIndex
    case NoIndex => if count > 0 then Some(0) else None
    case Index(n) =>
      if count < 3 then
        if n.Some? && 1 <= n.value <= count then Some(n.value - 1) else None
      else Some(1)
  }

  /**
   * handleDownloadButtonClick: off a detail page, or with a dialog open, open
   * the post's detail page in a new tab; on a detail page, download the chosen
   * video.
   */
  function RouteClick(page: PageContext, article: Option<Article>): (r: ClickAction)
    ensures !IsDetailPage(page.pathname) || page.dialogOpen ==> r.OpenInNewTab? || r.WarnNoPostId?
    ensures IsDetailPage(page.pathname) && !page.dialogOpen ==> r.DownloadVideo? || r.WarnNoVideo?
    ensures r.OpenInNewTab? ==>
              exists id :: ExtractPostIdFromArticle(article, page.pathname) == Some(id) && r.url == DetailUrl(id)
    ensures r.WarnNoPostId? ==> ExtractPostIdFromArticle(article, page.pathname).None?
    ensures r.DownloadVideo? ==> r.index < page.videoCount && CarouselVideo(page.imgIndex, page.videoCount) == Some(r.index)
  {
    if !IsDetailPage(page.pathname) || page.dialogOpen then
      match ExtractPostIdFromArticle(article, page.pathname)
      case Some(id) => OpenInNewTab(DetailUrl(id))
      case None => WarnNoPostId
    else
      match CarouselVideo(page.imgIndex, page.videoCount)
      case Some(i) => DownloadVideo(i)
      case None => WarnNoVideo
  }

  /** The tab the feed opens lands on the detail page of the same post, so its path names that post. */
  lemma OpenedPageNamesThePost(page: PageContext, article: Option<Article>)
    requires RouteClick(page, article).OpenInNewTab?
    ensures exists id :: && RouteClick(page, article).url == DetailOrigin + DetailPath(id) + AutoDownloadQuery
                         && IsDetailPage(DetailPath(id))
                         && ExtractPostId(DetailPath(id)) == ExtractPostIdFromArticle(article, page.pathname)
  {
    var id := ExtractPostIdFromArticle(article, page.pathname).value;
    DetailPathYieldsId(id);
  }

  // ---------------------------------------------------------------------------
  // Waiting for the manifest (downloadVideoWithMerge, lines 41-60).
  // ---------------------------------------------------------------------------

  const MaxRetryAttempts := 10

  /** The wait before retry `attempt`: attempt x 1000 ms for the first five, then 2000 ms. */
  function RetryDelay(attempt: nat): nat
    requires 1 <= attempt <= MaxRetryAttempts
  {
    if attempt <= 5 then attempt * 1000 else 2000
  }

  /** Total waiting before retries 1..n have all been made. */
  function TotalRetryDelay(n: nat): nat
    requires n <= MaxRetryAttempts
  {
    if n == 0 then 0 else TotalRetryDelay(n - 1) + RetryDelay(n)
  }

  /** The schedule waits 25 s in all (the source's comment says 20 s). */
  lemma {:induction false} RetryScheduleTotal()
    ensures TotalRetryDelay(MaxRetryAttempts) == 25000
  {
    assert TotalRetryDelay(5) == 15000 by {
      assert TotalRetryDelay(1) == 1000;
      assert TotalRetryDelay(2) == 3000;
      assert TotalRetryDelay(3) == 6000;
      assert TotalRetryDelay(4) == 10000;
    }
    assert TotalRetryDelay(6) == 17000;
    assert TotalRetryDelay(7) == 19000;
    assert TotalRetryDelay(8) == 21000;
    assert TotalRetryDelay(9) == 23000;
  }

  lemma {:induction false} RetryDelayGrows(m: nat, n: nat)
    requires m <= n <= MaxRetryAttempts
    ensures TotalRetryDelay(m) <= TotalRetryDelay(n)
    decreases n - m
  {
    if m < n {
      RetryDelayGrows(m, n - 1);
    }
  }

  /**
   * The lookup with retries. `lookups[0]` is what the first lookup finds and
   * `lookups[k]` what retry `k` finds; retries happen only on a detail page.
   */
  method LocateWithRetry(onDetailPage: bool, lookups: seq<Option<StreamUrls>>)
    returns (found: Option<StreamUrls>, waited: nat)
    requires |lookups| == MaxRetryAttempts + 1
    ensures !onDetailPage ==> found == lookups[0] && waited == 0
    ensures onDetailPage ==> (found.None? <==> forall k :: 0 <= k < |lookups| ==> lookups[k].None?)
    ensures onDetailPage && found.Some? ==>
              exists k :: 0 <= k < |lookups| && found == lookups[k] && waited == TotalRetryDelay(k)
                          && forall m :: 0 <= m < k ==> lookups[m].None?
    ensures onDetailPage && found.None? ==> waited == TotalRetryDelay(MaxRetryAttempts)
    ensures waited <= 25000
  {
    found := lookups[0];
    waited := 0;
    if found.None? && onDetailPage {
      var attempt := 1;
      while attempt <= MaxRetryAttempts && found.None?
        invariant 1 <= attempt <= MaxRetryAttempts + 1
        invariant waited == TotalRetryDelay(attempt - 1)
        invariant found.None? ==> forall m :: 0 <= m < attempt ==> lookups[m].None?
        invariant found.Some? ==> attempt >= 2 && found == lookups[attempt - 1]
                                  && forall m :: 0 <= m < attempt - 1 ==> lookups[m].None?
        decreases MaxRetryAttempts + 1 - attempt
      {
        waited := waited + RetryDelay(attempt);
        found := lookups[attempt];
        attempt := attempt + 1;
      }
      RetryScheduleTotal();
      RetryDelayGrows(attempt - 1, MaxRetryAttempts);
    }
  }

  // ---------------------------------------------------------------------------
  // Auto-download (checkAutoDownload).
  // ---------------------------------------------------------------------------

  datatype QueryParam = QueryParam(name: string, value: string)

  /** The page location: its path and its query parameters in order. */
  datatype Location = Location(pathname: string, query: seq<QueryParam>)

  /** `new URLSearchParams(search).get(name)`: the first value under that name. */
  function QueryGet(query: seq<QueryParam>, name: string): (r: Option<string>)
    ensures r.None? <==> forall i :: 0 <= i < |query| ==> query[i].name != name
    ensures r.Some? ==> exists i :: && 0 <= i < |query| && query[i] == QueryParam(name, r.value)
                                    && forall k :: 0 <= k < i ==> query[k].name != name
    decreases |query|
  {
    if |query| == 0 then None
    else if query[0].name == name then Some(query[0].value)
    else QueryGet(query[1..], name)
  }

  /** The location a feed click opens. */
  function DetailLocation(id: string): Location {
    Location(DetailPath(id), [QueryParam("igdl", "1")])
  }

  /** `urlParams.get('igdl')` is truthy: present and non-empty. */
  predicate HasAutoDownloadMarker(loc: Location) {
    var v := QueryGet(loc.query, "igdl");
    v.Some? && |v.value| > 0
  }

  /** What checkAutoDownload leaves behind: the instance flag, the location, and whether it starts waiting. */
  datatype AutoCheck = AutoCheck(triggered: bool, location: Location, startsWaiting: bool)

  /**
   * checkAutoDownload: unless already triggered, on a detail page with the
   * marker, mark the instance as triggered, replace the URL by its bare path
   * (`history.replaceState`) and start waiting for the control.
   */
  function CheckAutoDownload(triggered: bool, loc: Location): (r: AutoCheck)
    ensures r.startsWaiting <==> !triggered && HasAutoDownloadMarker(loc) && IsDetailPage(loc.pathname)
    ensures r.startsWaiting ==> r.triggered && r.location == Location(loc.pathname, [])
    ensures !r.startsWaiting ==> r.triggered == triggered && r.location == loc
  {
    if triggered then AutoCheck(triggered, loc, false)
    else if !HasAutoDownloadMarker(loc) then AutoCheck(triggered, loc, false)
    else if !IsDetailPage(loc.pathname) then AutoCheck(triggered, loc, false)
    else AutoCheck(true, Location(loc.pathname, []), true)
  }

  /**
   * Once only: after a check that starts waiting, neither the same instance
   * (reinitialised) nor a fresh one on the reloaded page starts again.
   */
  lemma AutoDownloadOnce(triggered: bool, loc: Location, freshFlag: bool)
    requires CheckAutoDownload(triggered, loc).startsWaiting
    ensures !CheckAutoDownload(CheckAutoDownload(triggered, loc).triggered, CheckAutoDownload(triggered, loc).location).startsWaiting
    ensures !CheckAutoDownload(freshFlag, CheckAutoDownload(triggered, loc).location).startsWaiting
  {
  }

  /** A post opened from the feed starts its download on the new page. */
  lemma OpenedDetailPageAutoDownloads(id: string)
    requires |id| > 0 && '/' !in id
    ensures CheckAutoDownload(false, DetailLocation(id)).startsWaiting
  {
    DetailPathYieldsId(id);
  }

  const MaxButtonPolls := 30

  /**
   * The wait for the control: up to 30 polls one second apart; `present[k]`
   * says whether a `.post-download-button` exists at poll `k + 1`.
   */
  method WaitForButton(present: seq<bool>) returns (clickedAt: Option<nat>, waited: nat)
    requires |present| == MaxButtonPolls
    ensures clickedAt.Some? ==> && 1 <= clickedAt.value <= MaxButtonPolls
                                && present[clickedAt.value - 1]
                                && (forall k :: 0 <= k < clickedAt.value - 1 ==> !present[k])
                                && waited == clickedAt.value * 1000
    ensures clickedAt.None? ==> (forall k :: 0 <= k < MaxButtonPolls ==> !present[k]) && waited == 30000
  {
    waited := 0;
    var attempt := 1;
    while attempt <= MaxButtonPolls
      invariant 1 <= attempt <= MaxButtonPolls + 1
      invariant waited == (attempt - 1) * 1000
      invariant forall k :: 0 <= k < attempt - 1 ==> !present[k]
      decreases MaxButtonPolls + 1 - attempt
    {
      waited := waited + 1000;
      if present[attempt - 1] {
        return Some(attempt), waited;
      }
      attempt := attempt + 1;
    }
    clickedAt := None;
  }

  // ---------------------------------------------------------------------------
  // Inserting the control (canDownloadVideo, addDownloadButton).
  // ---------------------------------------------------------------------------

  /**
   * What addDownloadButton sees of a post element: the number of
   * `.post-download-button` elements inside it, whether the closest `<article>`
   * and the closest `<main>` exist and contain a video, and its share element.
   */
  datatype PostSlot = PostSlot(
    buttons: nat,
    articleHasVideo: Option<bool>,
    mainHasVideo: Option<bool>,
    share: Option<ShareElement>)

  /**
   * The share element found by the selector: whether it is a `<button>`, and
   * whether its parent is a `<span>` that is the post element itself (the one
   * placement where the wrapped control lands outside the post).
   */
  datatype ShareElement = ShareElement(isButton: bool, parentIsSpan: bool, parentIsPost: bool)

  /** `(closest('article') ?? closest('main'))?.querySelector('video')`: the article decides when there is one. */
  predicate CanDownloadVideo(p: PostSlot) {
    match p.articleHasVideo
    case Some(v) => v
    case None => p.mainHasVideo == Some(true)
  }

  datatype Insertion = NoChange | Inserted(wrappedInSpan: bool, insidePost: bool)

  /** addDownloadButton's effect: nothing in three cases, otherwise one control with the reserved class. */
  function AddDownloadButton(p: PostSlot): (r: Insertion)
    ensures r.Inserted? <==> p.buttons == 0 && CanDownloadVideo(p) && p.share.Some?
    ensures r.Inserted? ==> r.wrappedInSpan == (p.share.value.isButton && p.share.value.parentIsSpan)
  {
    if p.buttons > 0 then NoChange
    else if !CanDownloadVideo(p) then NoChange
    else if p.share.None? then NoChange
    else
      var wrapped := p.share.value.isButton && p.share.value.parentIsSpan;
      Inserted(wrapped, !(wrapped && p.share.value.parentIsPost))
  }

  /** The post after an insertion: one more control inside it when it landed inside. */
  function Apply(p: PostSlot, r: Insertion): PostSlot {
    if r.Inserted? && r.insidePost then p.(buttons := p.buttons + 1) else p
  }

  /** Adding twice is adding once, as long as the control lands inside the post. */
  lemma AddDownloadButtonIdempotent(p: PostSlot)
    requires AddDownloadButton(p).Inserted? ==> AddDownloadButton(p).insidePost
    ensures AddDownloadButton(Apply(p, AddDownloadButton(p))).NoChange?
    ensures AddDownloadButton(p).Inserted? ==> Apply(p, AddDownloadButton(p)).buttons == 1
  {
  }

  /** When the span wrapping the share control is the post itself, a second call inserts a second control. */
  lemma WrappedOutsideRepeats(p: PostSlot)
    requires p.buttons == 0 && CanDownloadVideo(p)
    requires p.share == Some(ShareElement(true, true, true))
    ensures AddDownloadButton(p) == Inserted(true, false)
    ensures AddDownloadButton(Apply(p, AddDownloadButton(p))) == Inserted(true, false)
  {
  }

  // ---------------------------------------------------------------------------
  // Account name used in the output file name (downloadVideoWithMerge, lines 103-112).
  // ---------------------------------------------------------------------------

  /** The account name from the article, else from main, else 'unknown'; an empty name counts as missing. */
  function MergeAccountName(fromArticle: Option<string>, fromMain: Option<string>): (r: string)
    ensures |r| > 0
    ensures fromArticle.Some? && |fromArticle.value| > 0 ==> r == fromArticle.value
    ensures !(fromArticle.Some? && |fromArticle.value| > 0) && fromMain.Some? && |fromMain.value| > 0 ==> r == fromMain.value
    ensures !(fromArticle.Some? && |fromArticle.value| > 0) && !(fromMain.Some? && |fromMain.value| > 0) ==> r == "unknown"
    ensures r == "unknown" || r == fromArticle.GetOr("") || r == fromMain.GetOr("")
  {
    if fromArticle.Some? && |fromArticle.value| > 0 then fromArticle.value
    else if fromMain.Some? && |fromMain.value| > 0 then fromMain.value
    else "unknown"
  }

  // ---------------------------------------------------------------------------
  // The merge request (downloadVideoWithMerge).
  // ---------------------------------------------------------------------------

  /** `${accountName}_${Math.floor(duration)}`; the whole seconds are taken as given. */
  function OutputFileName(accountName: string, seconds: nat): string {
    accountName + "_" + DecimalText(seconds)
  }

  /** Length of the longest run of decimal digits at the end of `s`. */
  function DigitSuffixLength(s: string): (n: nat)
    ensures n <= |s|
    ensures forall i :: |s| - n <= i < |s| ==> IsDigit(s[i])
    ensures n < |s| ==> !IsDigit(s[|s| - n - 1])
    decreases |s|
  {
    if |s| > 0 && IsDigit(s[|s| - 1]) then 1 + DigitSuffixLength(s[..|s| - 1]) else 0
  }

  /** Reads an output file name back: the text before the trailing `_digits` and the number. */
  function SplitOutputFileName(f: string): Option<(string, nat)> {
    var n := DigitSuffixLength(f);
    if 0 < n && n < |f| && f[|f| - n - 1] == '_' then
      Some((f[..|f| - n - 1], DecimalValue(f[|f| - n..])))
    else None
  }

  lemma {:induction false} DigitSuffixOfOutputName(name: string, digits: string)
    requires forall i :: 0 <= i < |digits| ==> IsDigit(digits[i])
    ensures DigitSuffixLength(name + "_" + digits) == |digits|
    decreases |digits|
  {
    var s := name + "_" + digits;
    if |digits| > 0 {
      var d := digits[..|digits| - 1];
      assert s[..|s| - 1] == name + "_" + d;
      DigitSuffixOfOutputName(name, d);
    } else {
      assert s[|s| - 1] == '_';
    }
  }

  /** The account name and the duration can be read back from the file name. */
  lemma OutputFileNameRoundTrip(accountName: string, seconds: nat)
    ensures SplitOutputFileName(OutputFileName(accountName, seconds)) == Some((accountName, seconds))
  {
    var digits := DecimalText(seconds);
    var f := OutputFileName(accountName, seconds);
    DigitSuffixOfOutputName(accountName, digits);
    assert f[..|f| - |digits| - 1] == accountName;
    assert f[|f| - |digits|..] == digits;
    DecimalRoundTrip(seconds);
  }

  /** What downloadVideoWithMerge does before it waits for the background reply. */
  datatype MergeOutcome =
    | WarnMissingPostId        // 'Could not find post ID'
    | WarnReloadPage           // on a detail page: the data has not loaded
    | WarnOpenPostFirst        // elsewhere: open the post first
    | WarnNoVideoUrl           // 'Could not find video URL'
    | RequestMerge(videoUrl: string, audioUrl: Option<string>, accountName: string, outputFileName: string)

  /**
   * downloadVideoWithMerge up to the merge request. `postId` is what the
   * video's article yields, `lookups` what each script search finds (see
   * LocateWithRetry), the account names what the two selectors find, and
   * `seconds` the whole seconds of the playing video. The page path is read
   * twice: `onDetailPage` before the retries decides whether to retry, and
   * `onDetailPageAfterWait` after them decides which warning is shown, since
   * the page may have navigated while the retries waited.
   */
  method PrepareMerge(
    postId: Option<string>, onDetailPage: bool, onDetailPageAfterWait: bool, lookups: seq<Option<StreamUrls>>,
    accountFromArticle: Option<string>, accountFromMain: Option<string>, seconds: nat)
    returns (outcome: MergeOutcome, waited: nat)
    requires |lookups| == MaxRetryAttempts + 1
    ensures outcome.WarnMissingPostId? <==> postId.None? || |postId.value| == 0
    ensures outcome.WarnMissingPostId? ==> waited == 0
    ensures outcome.WarnReloadPage? <==>
              && !outcome.WarnMissingPostId? && onDetailPageAfterWait
              && (if onDetailPage then forall k :: 0 <= k < |lookups| ==> lookups[k].None? else lookups[0].None?)
    ensures outcome.WarnOpenPostFirst? <==>
              && !outcome.WarnMissingPostId? && !onDetailPageAfterWait
              && (if onDetailPage then forall k :: 0 <= k < |lookups| ==> lookups[k].None? else lookups[0].None?)
    ensures outcome.WarnNoVideoUrl? || outcome.RequestMerge? ==>
              exists k :: 0 <= k < |lookups| && lookups[k].Some?
                          && (forall m :: 0 <= m < k ==> lookups[m].None?)
                          && (outcome.RequestMerge? <==> |lookups[k].value.videoUrl| > 0)
                          && (outcome.RequestMerge? ==> lookups[k].value == StreamUrls(outcome.videoUrl, outcome.audioUrl))
    ensures outcome.RequestMerge? ==>
              && outcome.accountName == MergeAccountName(accountFromArticle, accountFromMain)
              && outcome.outputFileName == OutputFileName(outcome.accountName, seconds)
    ensures waited <= 25000
  {
    if postId.None? || |postId.value| == 0 {
      return WarnMissingPostId, 0;
    }
    var found;
    found, waited := LocateWithRetry(onDetailPage, lookups);
    if found.None? {
      outcome := if onDetailPageAfterWait then WarnReloadPage else WarnOpenPostFirst;
      return;
    }
    if |found.value.videoUrl| == 0 {
      return WarnNoVideoUrl, waited;
    }
    var name := MergeAccountName(accountFromArticle, accountFromMain);
    outcome := RequestMerge(found.value.videoUrl, found.value.audioUrl, name, OutputFileName(name, seconds));
  }

  /** The background reply as the content script reads it: `{ success?, error? }`, or nothing. */
  datatype MergeReply = MergeReply(success: bool, error: Option<string>)

  datatype AlertLevel = Info | Warn
  datatype Notice = Notice(text: string, level: AlertLevel)

  const MergeFailedPrefix := "Merge failed: "

  /** The alert shown once the background replies. */
  function MergeResultNotice(reply: Option<MergeReply>): (r: Notice)
    ensures r.level == Warn <==> reply.None? || !reply.value.success
    ensures r.level == Warn && reply.Some? && reply.value.error.Some? && |reply.value.error.value| > 0 ==>
              r.text == MergeFailedPrefix + reply.value.error.value
    ensures r.level == Warn && (reply.None? || reply.value.error.None? || |reply.value.error.value| == 0) ==>
              r.text == MergeFailedPrefix + "Unknown error"
  {
    if reply.None? || !reply.value.success then
      var error := if reply.Some? && reply.value.error.Some? && |reply.value.error.value| > 0
                   then reply.value.error.value else "Unknown error";
      Notice(MergeFailedPrefix + error, Warn)
    else Notice("Video download started!", Info)
  }
}

=== FILE: post_ids.dfy ===
/**
 * Post identifiers (PostDownloader.extractPostIdFromUrl and
 * extractPostIdFromArticle): the `[^/]+` segment after the leftmost `/p/` or
 * `/reel/` of the pattern `/\/(p|reel)\/([^/]+)/`, and the order in which an
 * article's links and the page URL are tried.
 */
module PostIds {
  import opened Wrappers
  import opened Text

  const PostMarker := "/p/"
  const ReelMarker := "/reel/"

  /** The longest prefix of `s` without '/': what `[^/]+` consumes. */
  function Segment(s: string): (r: string)
    ensures '/' !in r
    ensures StartsWith(s, r)
    ensures |r| == |s| || s[|r|] == '/'
    decreases |s|
  {
    if |s| == 0 || s[0] == '/' then [] else [s[0]] + Segment(s[1..])
  }

  /** The pattern can match at position `i` after `marker`: at least one non-'/' character follows it. */
  predicate MatchesAfter(s: string, i: nat, marker: string) {
    i <= |s| && StartsWith(s[i..], marker) && i + |marker| < |s| && s[i + |marker|] != '/'
  }

  predicate MatchesAt(s: string, i: nat) {
    MatchesAfter(s, i, PostMarker) || MatchesAfter(s, i, ReelMarker)
  }

  /** The capture group at a position where the pattern matches. */
  function IdAt(s: string, i: nat): string
    requires MatchesAt(s, i)
  {
    if MatchesAfter(s, i, PostMarker) then Segment(s[i + |PostMarker|..]) else Segment(s[i + |ReelMarker|..])
  }

  /** The leftmost position from `i` on where the pattern matches, or `|s|` when there is none. */
  function FirstMatchFrom(s: string, i: nat): (k: nat)
    requires i <= |s|
    ensures i <= k <= |s|
    ensures k < |s| ==> MatchesAt(s, k)
    ensures forall m :: i <= m < k ==> !MatchesAt(s, m)
    decreases |s| - i
  {
    if i == |s| || MatchesAt(s, i) then i else FirstMatchFrom(s, i + 1)
  }

  /** `s.match(/\/(p|reel)\/([^/]+)/)?.[2]`: the id after the leftmost position where the pattern matches. */
  function ExtractPostId(s: string): (r: Option<string>)
    ensures r.Some? ==> |r.value| > 0 && '/' !in r.value
  {
    var k := FirstMatchFrom(s, 0);
    if k < |s| then
      IdNonEmpty(s, k);
      Some(IdAt(s, k))
    else None
  }

  /** The id comes from the leftmost position where the pattern matches, and there is none exactly when it matches nowhere. */
  lemma ExtractPostIdLeftmost(s: string)
    ensures ExtractPostId(s).Some? ==>
              exists k :: && 0 <= k < |s| && MatchesAt(s, k) && ExtractPostId(s).value == IdAt(s, k)
                          && forall m :: 0 <= m < k ==> !MatchesAt(s, m)
    ensures ExtractPostId(s).None? <==> forall m :: 0 <= m < |s| ==> !MatchesAt(s, m)
  {
    var k := FirstMatchFrom(s, 0);
    if k < |s| {
      assert MatchesAt(s, k);
    }
  }

  lemma IdNonEmpty(s: string, i: nat)
    requires MatchesAt(s, i)
    ensures |IdAt(s, i)| > 0
  {
    var n := if MatchesAfter(s, i, PostMarker) then |PostMarker| else |ReelMarker|;
    assert s[i + n..][0] == s[i + n] != '/';
  }

  /** `/\/(p|reel)\/[^/]+/.test(pathname)`: the page shows a single post or reel. */
  predicate IsDetailPage(pathname: string) {
    ExtractPostId(pathname).Some?
  }

  /** The path of a post's detail page yields that post's id back. */
  lemma DetailPathYieldsId(id: string)
    requires |id| > 0 && '/' !in id
    ensures ExtractPostId("/p/" + id + "/") == Some(id)
  {
    var s := "/p/" + id + "/";
    assert StartsWith(s[0..], PostMarker);
    assert s[3] == id[0];
    assert MatchesAt(s, 0);
    assert s[3..] == id + "/";
    SegmentStopsAtSlash(id, "/");
  }

  lemma {:induction false} SegmentStopsAtSlash(id: string, rest: string)
    requires '/' !in id
    requires |rest| > 0 && rest[0] == '/'
    ensures Segment(id + rest) == id
    decreases |id|
  {
    if |id| > 0 {
      assert (id + rest)[1..] == id[1..] + rest;
      SegmentStopsAtSlash(id[1..], rest);
    } else {
      assert id + rest == rest;
    }
  }

  // ---------------------------------------------------------------------------
  // Which link of an article names the post.
  // ---------------------------------------------------------------------------

  /**
   * What extractPostIdFromArticle reads from an `<article>`: for each `<time>`
   * element, the `href` of its closest enclosing anchor (None when there is no
   * anchor or its href is empty), and the `href` of the first anchor whose
   * href attribute contains `/p/` or `/reel/`.
   */
  datatype Article = Article(timeLinks: seq<Option<string>>, postLink: Option<string>)

  function IdFromLink(href: Option<string>): Option<string> {
    if href.Some? then ExtractPostId(href.value) else None
  }

  /** The position of the first present entry from `j` on, or the length when there is none. */
  function FirstPresent(ids: seq<Option<string>>, j: nat): (i: nat)
    requires j <= |ids|
    ensures j <= i <= |ids|
    ensures i < |ids| ==> ids[i].Some?
    ensures forall k :: j <= k < i ==> ids[k].None?
    decreases |ids| - j
  {
    if j == |ids| || ids[j].Some? then j else FirstPresent(ids, j + 1)
  }

  /** The first time-element link that yields an id. */
  function FromTimeLinks(links: seq<Option<string>>): (r: Option<string>)
    ensures r.Some? ==> exists i :: 0 <= i < |links| && IdFromLink(links[i]) == r
                                  && forall k :: 0 <= k < i ==> IdFromLink(links[k]).None?
    ensures r.None? <==> forall k :: 0 <= k < |links| ==> IdFromLink(links[k]).None?
  {
    var ids := seq(|links|, k requires 0 <= k < |links| => IdFromLink(links[k]));
    assert forall k :: 0 <= k < |links| ==> ids[k] == IdFromLink(links[k]);
    var i := FirstPresent(ids, 0);
    if i < |ids| then ids[i] else None
  }

  /**
   * extractPostIdFromArticle: with no article, the page URL; otherwise the
   * first time-element link, then the first post link, then the page URL.
   */
  function ExtractPostIdFromArticle(article: Option<Article>, pathname: string): (r: Option<string>)
    ensures r.Some? ==> |r.value| > 0 && '/' !in r.value
    ensures article.None? ==> r == ExtractPostId(pathname)
    ensures article.Some? && FromTimeLinks(article.value.timeLinks).Some? ==> r == FromTimeLinks(article.value.timeLinks)
    ensures article.Some? && FromTimeLinks(article.value.timeLinks).None? && IdFromLink(article.value.postLink).Some? ==>
              r == IdFromLink(article.value.postLink)
    ensures article.Some? && FromTimeLinks(article.value.timeLinks).None? && IdFromLink(article.value.postLink).None? ==>
              r == ExtractPostId(pathname)
    ensures r.None? ==> ExtractPostId(pathname).None?
  {
    match article
    case None => ExtractPostId(pathname)
    case Some(a) =>
      var fromTime := FromTimeLinks(a.timeLinks);
      if fromTime.Some? then fromTime
      else if IdFromLink(a.postLink).Some? then IdFromLink(a.postLink)
      else ExtractPostId(pathname)
  }

  /** A time link that yields an id wins over every post link and over the page URL. */
  lemma TimeLinkPrecedence(a: Article, i: int, pathname: string)
    requires 0 <= i < |a.timeLinks| && IdFromLink(a.timeLinks[i]).Some?
    requires forall k :: 0 <= k < i ==> IdFromLink(a.timeLinks[k]).None?
    ensures ExtractPostIdFromArticle(Some(a), pathname) == IdFromLink(a.timeLinks[i])
  {
    var r := FromTimeLinks(a.timeLinks);
    var j :| 0 <= j < |a.timeLinks| && IdFromLink(a.timeLinks[j]) == r && forall k :: 0 <= k < j ==> IdFromLink(a.timeLinks[k]).None?;
    assert j == i;
  }
}

=== FILE: registry.dfy ===
/**
 * The shared state of every downloader (Downloader.ts): the registry of live
 * instances, the mutation observer's lifecycle, the filter that drops the
 * extension's own DOM changes, and the one-second debounce that reinitialises
 * the instances.
 */
module Registry {
  import opened Wrappers

  /** An instance is known by its identity only. */
  type InstanceId = nat

  /** A page element, reduced to its class list. */
  type PageElement = set<string>

  /**
   * The static fields of the base class plus the part of the page that init
   * and remove touch: the instance list, whether an observer is connected,
   * and the page's elements.
   */
  datatype Registry = Registry(instances: seq<InstanceId>, observing: bool, page: seq<PageElement>)

  const Initial := Registry([], false, [])

  /** The class of the post download control (remove's selector, without the dot). */
  const ButtonClass := "post-download-button"
  const AlertClass := "alert"
  const AlertWrapperClass := "alert-wrapper"

  predicate NoDuplicates(s: seq<InstanceId>) {
    forall i, j :: 0 <= i < j < |s| ==> s[i] != s[j]
  }

  /** What init and remove keep: no instance twice, and an observer exactly while some instance is registered. */
  predicate Valid(r: Registry) {
    NoDuplicates(r.instances) && (r.observing <==> |r.instances| > 0)
  }

  /** `instances.indexOf(x)`. */
  function IndexOf(s: seq<InstanceId>, x: InstanceId): (i: int)
    ensures -1 <= i < |s|
    ensures i == -1 <==> x !in s
    ensures 0 <= i ==> s[i] == x && forall j :: 0 <= j < i ==> s[j] != x
    decreases |s|
  {
    if |s| == 0 then -1
    else if s[0] == x then 0
    else
      var i := IndexOf(s[1..], x);
      if i == -1 then -1 else i + 1
  }

  /**
   * init: register the instance unless present, connect the observer unless
   * connected, and let createDownloadButton add `controls` to the page: the
   * controls it inserts before its first await, one per post that passes
   * addDownloadButton's guard (none when no post is there yet, since it then
   * waits for the retry).
   */
  function Init(r: Registry, x: InstanceId, controls: seq<PageElement>): (r': Registry)
    ensures x in r'.instances && r'.observing
    ensures x in r.instances ==> r'.instances == r.instances
    ensures x !in r.instances ==> r'.instances == r.instances + [x]
    ensures |r'.page| == |r.page| + |controls| && r'.page[..|r.page|] == r.page && r'.page[|r.page|..] == controls
  {
    Registry(if x in r.instances then r.instances else r.instances + [x], true, r.page + controls)
  }

  /** The page without the elements carrying class `cls`. */
  function RemoveElements(page: seq<PageElement>, cls: string): (p: seq<PageElement>)
    ensures forall i :: 0 <= i < |p| ==> cls !in p[i]
    ensures forall e :: e in page && cls !in e ==> e in p
    ensures forall e :: e in p ==> e in page
    ensures |p| <= |page|
    decreases |page|
  {
    if |page| == 0 then []
    else if cls in page[0] then RemoveElements(page[1..], cls)
    else [page[0]] + RemoveElements(page[1..], cls)
  }

  /**
   * remove: unregister the instance (first occurrence), delete every element
   * with class `cls`, and disconnect the observer once nobody is registered.
   */
  function Remove(r: Registry, x: InstanceId, cls: string): (r': Registry)
    ensures x !in r.instances ==> r'.instances == r.instances
    ensures x in r.instances ==> |r'.instances| == |r.instances| - 1
    ensures NoDuplicates(r.instances) ==> x !in r'.instances
    ensures r'.page == RemoveElements(r.page, cls)
    ensures r'.observing <==> r.observing && |r'.instances| > 0
  {
    var i := IndexOf(r.instances, x);
    if i > -1 then
      SpliceOut(r.instances, i);
      var rest := r.instances[..i] + r.instances[i + 1..];
      Registry(rest, r.observing && |rest| > 0, RemoveElements(r.page, cls))
    else
      Registry(r.instances, r.observing && |r.instances| > 0, RemoveElements(r.page, cls))
  }

  /** Cutting out position `i` removes one copy of its element, and every copy when there was only one. */
  lemma SpliceOut(s: seq<InstanceId>, i: nat)
    requires i < |s|
    ensures multiset(s[..i] + s[i + 1..]) == multiset(s) - multiset{s[i]}
    ensures NoDuplicates(s) ==> s[i] !in s[..i] + s[i + 1..]
  {
    var rest := s[..i] + s[i + 1..];
    assert s == s[..i] + [s[i]] + s[i + 1..];
    assert multiset(s) == multiset(s[..i]) + multiset{s[i]} + multiset(s[i + 1..]);
    if NoDuplicates(s) {
      forall k | 0 <= k < |rest|
        ensures rest[k] != s[i]
      {
        if k < i {
          assert rest[k] == s[k];
        } else {
          assert rest[k] == s[k + 1];
        }
      }
    }
  }

  /** Removing a registered instance drops exactly one copy of it and keeps every other instance. */
  lemma RemoveDropsOne(r: Registry, x: InstanceId, cls: string)
    requires x in r.instances
    ensures multiset(Remove(r, x, cls).instances) == multiset(r.instances) - multiset{x}
  {
    var s := r.instances;
    var i := IndexOf(s, x);
    assert Remove(r, x, cls).instances == s[..i] + s[i + 1..];
    SpliceOut(s, i);
  }

  /**
   * Adding an instance twice is adding it once, when the second call finds
   * every post already holding its control and so inserts nothing (see
   * PostActions.AddDownloadButtonIdempotent).
   */
  lemma InitIdempotent(r: Registry, x: InstanceId, controls: seq<PageElement>)
    ensures Init(Init(r, x, controls), x, []) == Init(r, x, controls)
  {
    assert Init(r, x, controls).page + [] == Init(r, x, controls).page;
  }

  lemma InitPreservesValid(r: Registry, x: InstanceId, controls: seq<PageElement>)
    requires Valid(r)
    ensures Valid(Init(r, x, controls))
  {
  }

  lemma RemovePreservesValid(r: Registry, x: InstanceId, cls: string)
    requires Valid(r)
    ensures Valid(Remove(r, x, cls))
  {
    var i := IndexOf(r.instances, x);
    if i > -1 {
      var s := r.instances;
      var t := s[..i] + s[i + 1..];
      forall a, b | 0 <= a < b < |t|
        ensures t[a] != t[b]
      {
        var a' := if a < i then a else a + 1;
        var b' := if b < i then b else b + 1;
        assert t[a] == s[a'] && t[b] == s[b'];
      }
    }
  }

  // ---------------------------------------------------------------------------
  // The self-mutation filter (handleMutation, lines 14-34).
  // ---------------------------------------------------------------------------

  /** An added DOM node: an element (HTML or not, e.g. SVG) with its classes and children, or a non-element node. */
  datatype Node = Element(isHtml: bool, classes: set<string>, children: seq<Node>) | Other

  datatype MutationRecord = MutationRecord(addedNodes: seq<Node>)

  /** The node carries one of the extension's classes. */
  predicate Marked(n: Node) {
    n.Element? && (ButtonClass in n.classes || AlertClass in n.classes || AlertWrapperClass in n.classes)
  }

  /** The node or one of its descendants is marked. */
  predicate SubtreeMarked(n: Node)
    decreases n
  {
    n.Element? && (Marked(n) || exists i :: 0 <= i < |n.children| && SubtreeMarked(n.children[i]))
  }

  /** `node.querySelector('.post-download-button, .alert, .alert-wrapper')` finds something. */
  predicate DescendantMarked(n: Node) {
    n.Element? && exists i :: 0 <= i < |n.children| && SubtreeMarked(n.children[i])
  }

  /** An added node that shows the change is the extension's own: an HTML element that is or contains a marked one. */
  predicate IsOwnNode(n: Node) {
    n.Element? && n.isHtml && (Marked(n) || DescendantMarked(n))
  }

  /** The batch is ignored when some record adds one of the extension's own nodes. */
  predicate IsOwnMutation(batch: seq<MutationRecord>) {
    exists r, i :: 0 <= r < |batch| && 0 <= i < |batch[r].addedNodes| && IsOwnNode(batch[r].addedNodes[i])
  }

  /** The filter as the source runs it: records in order, nodes in order, stopping at the first own node. */
  method ScanBatch(batch: seq<MutationRecord>) returns (own: bool)
    ensures own <==> IsOwnMutation(batch)
  {
    var r := 0;
    while r < |batch|
      invariant 0 <= r <= |batch|
      invariant forall r', i :: 0 <= r' < r && 0 <= i < |batch[r'].addedNodes| ==> !IsOwnNode(batch[r'].addedNodes[i])
    {
      var nodes := batch[r].addedNodes;
      var i := 0;
      while i < |nodes|
        invariant 0 <= i <= |nodes|
        invariant forall i' :: 0 <= i' < i ==> !IsOwnNode(nodes[i'])
      {
        var n := nodes[i];
        if n.Element? && n.isHtml {
          if Marked(n) || DescendantMarked(n) {
            return true;
          }
        }
        i := i + 1;
      }
      r := r + 1;
    }
    return false;
  }

  /** Inserting a control, or a wrapper around one, is ignored. */
  lemma OwnInsertionIgnored(batch: seq<MutationRecord>, r: nat, i: nat, wrapperClasses: set<string>, inner: seq<Node>)
    requires r < |batch| && i < |batch[r].addedNodes|
    requires batch[r].addedNodes[i] == Element(true, wrapperClasses, inner + [Element(true, {ButtonClass}, [])])
    ensures IsOwnMutation(batch)
  {
    var n := batch[r].addedNodes[i];
    assert SubtreeMarked(n.children[|inner|]);
  }

  /** Nodes that are not HTML elements never make a batch ignored, whatever they contain. */
  lemma NonHtmlNeverOwn(batch: seq<MutationRecord>)
    requires forall r, i :: 0 <= r < |batch| && 0 <= i < |batch[r].addedNodes| ==>
               !batch[r].addedNodes[i].Element? || !batch[r].addedNodes[i].isHtml
    ensures !IsOwnMutation(batch)
  {
  }

  // ---------------------------------------------------------------------------
  // The debounce (handleMutation, lines 36-46).
  // ---------------------------------------------------------------------------

  const DebounceMs := 1000

  /** A batch of records delivered at a time in milliseconds. */
  datatype Delivery = Delivery(batch: seq<MutationRecord>, at: int)

  /** The pending timer's deadline and the times at which the timer has fired. */
  datatype Debouncer = Debouncer(pending: Option<int>, fired: seq<int>)

  /** Time passes to `t`: a timer due by then fires and is spent. */
  function AdvanceTo(d: Debouncer, t: int): (d': Debouncer)
    ensures d.pending.Some? && d.pending.value <= t ==> d' == Debouncer(None, d.fired + [d.pending.value])
    ensures !(d.pending.Some? && d.pending.value <= t) ==> d' == d
  {
    if d.pending.Some? && d.pending.value <= t then Debouncer(None, d.fired + [d.pending.value]) else d
  }

  /** One delivery: time advances, then a batch that is not the extension's own replaces the timer. */
  function Deliver(d: Debouncer, e: Delivery): (d': Debouncer)
    ensures IsOwnMutation(e.batch) ==> d' == AdvanceTo(d, e.at)
    ensures !IsOwnMutation(e.batch) ==> d'.pending == Some(e.at + DebounceMs) && d'.fired == AdvanceTo(d, e.at).fired
  {
    var d1 := AdvanceTo(d, e.at);
    if IsOwnMutation(e.batch) then d1 else d1.(pending := Some(e.at + DebounceMs))
  }

  function DeliverAll(d: Debouncer, es: seq<Delivery>): Debouncer
    decreases |es|
  {
    if |es| == 0 then d else Deliver(DeliverAll(d, es[..|es| - 1]), es[|es| - 1])
  }

  /** The time of the last delivery that is not the extension's own. */
  function LastCounted(es: seq<Delivery>): Option<int>
    decreases |es|
  {
    if |es| == 0 then None
    else if !IsOwnMutation(es[|es| - 1].batch) then Some(es[|es| - 1].at)
    else LastCounted(es[..|es| - 1])
  }

  /** Deliveries come in time order. */
  predicate InTimeOrder(es: seq<Delivery>) {
    forall i, j :: 0 <= i < j < |es| ==> es[i].at <= es[j].at
  }

  /**
   * A burst: every delivery comes less than a second after the last counted
   * one before it (so the timer is never due while the burst lasts).
   */
  predicate Burst(es: seq<Delivery>) {
    forall k :: 0 < k < |es| ==> LastCounted(es[..k]).Some? && es[k].at < LastCounted(es[..k]).value + DebounceMs
  }

  /**
   * While a burst lasts nothing fires, and the pending deadline is one second
   * after the last counted batch; own batches do not postpone it.
   */
  lemma {:induction false} BurstDefersFiring(es: seq<Delivery>)
    requires |es| > 0 && !IsOwnMutation(es[0].batch)
    requires Burst(es)
    ensures DeliverAll(Debouncer(None, []), es).fired == []
    ensures LastCounted(es).Some?
    ensures DeliverAll(Debouncer(None, []), es).pending == Some(LastCounted(es).value + DebounceMs)
    decreases |es|
  {
    var p := es[..|es| - 1];
    if |p| == 0 {
      assert LastCounted(es) == Some(es[0].at);
    } else {
      assert Burst(p) by {
        forall k | 0 < k < |p|
          ensures LastCounted(p[..k]).Some? && p[k].at < LastCounted(p[..k]).value + DebounceMs
        {
          assert p[..k] == es[..k];
        }
      }
      BurstDefersFiring(p);
      assert es[..|es| - 1] == p;
      assert es[|es| - 1].at < LastCounted(p).value + DebounceMs;
    }
  }

  /** Once the burst is over, the timer fires exactly once, one second after the last counted batch. */
  lemma BurstFiresOnce(es: seq<Delivery>, later: int)
    requires |es| > 0 && !IsOwnMutation(es[0].batch)
    requires Burst(es)
    requires LastCounted(es).Some? && later >= LastCounted(es).value + DebounceMs
    ensures AdvanceTo(DeliverAll(Debouncer(None, []), es), later).fired == [LastCounted(es).value + DebounceMs]
  {
    BurstDefersFiring(es);
  }

  /** A delivery that is the extension's own never moves the deadline. */
  lemma OwnDeliveryKeepsDeadline(d: Debouncer, e: Delivery)
    requires IsOwnMutation(e.batch)
    requires d.pending.None? || e.at < d.pending.value
    ensures Deliver(d, e) == d
  {
  }

  // ---------------------------------------------------------------------------
  // Firing: reinitialising the instances (line 43; PostDownloader.ts 501-512, 564-567).
  // ---------------------------------------------------------------------------

  /**
   * reinitialize of the post downloader: remove (with its control's class),
   * then init, which inserts `controls` afresh. No control from before
   * survives; the controls on the page afterwards are the new ones.
   */
  function Reinitialize(r: Registry, x: InstanceId, controls: seq<PageElement>): (r': Registry)
    ensures x in r'.instances && r'.observing
    ensures forall i :: 0 <= i < |r'.page| && ButtonClass in r'.page[i] ==> r'.page[i] in controls
    ensures forall e :: e in controls ==> e in r'.page
    ensures forall e :: e in r.page && ButtonClass !in e ==> e in r'.page
  {
    var removed := Remove(r, x, ButtonClass);
    var r' := Init(removed, x, controls);
    assert r'.page == removed.page + controls;
    r'
  }

  /** A registered instance moves to the end of the list and nobody else moves; the registry stays valid. */
  lemma ReinitializeRotates(r: Registry, x: InstanceId, controls: seq<PageElement>)
    requires Valid(r) && x in r.instances
    ensures var i := IndexOf(r.instances, x);
            Reinitialize(r, x, controls).instances == r.instances[..i] + r.instances[i + 1..] + [x]
    ensures multiset(Reinitialize(r, x, controls).instances) == multiset(r.instances)
    ensures Valid(Reinitialize(r, x, controls))
  {
    var s := r.instances;
    var i := IndexOf(s, x);
    var removed := Remove(r, x, ButtonClass);
    RemovePreservesValid(r, x, ButtonClass);
    assert removed.instances == s[..i] + s[i + 1..];
    assert x !in removed.instances;
    InitPreservesValid(removed, x, controls);
    assert Reinitialize(r, x, controls).instances == removed.instances + [x];
    RotateMultiset(s, i);
  }

  lemma RotateMultiset(s: seq<InstanceId>, i: nat)
    requires i < |s|
    ensures multiset(s[..i] + s[i + 1..] + [s[i]]) == multiset(s)
  {
    assert s == s[..i] + [s[i]] + s[i + 1..];
    assert multiset(s[..i] + s[i + 1..] + [s[i]]) == multiset(s[..i]) + multiset(s[i + 1..]) + multiset{s[i]};
  }

  /**
   * `instances.forEach(i => i.reinitialize())` as the source writes it: the
   * length is read once, and element `k` is read from the list as it is by
   * then. The result holds the final registry and the instances called, in order.
   */
  function ForEachLive(r: Registry, k: nat, len: nat, controls: seq<PageElement>): (Registry, seq<InstanceId>)
    decreases len - k
  {
    if k >= len || k >= |r.instances| then (r, [])
    else
      var x := r.instances[k];
      var (r', calls) := ForEachLive(Reinitialize(r, x, controls), k + 1, len, controls);
      (r', [x] + calls)
  }

  function FireAsWritten(r: Registry, controls: seq<PageElement>): (Registry, seq<InstanceId>) {
    ForEachLive(r, 0, |r.instances|, controls)
  }

  /** With two instances, the first is reinitialised twice and the second never. */
  lemma {:induction false} TwoInstancesAsWritten(a: InstanceId, b: InstanceId, page: seq<PageElement>, controls: seq<PageElement>)
    requires a != b
    ensures FireAsWritten(Registry([a, b], true, page), controls).1 == [a, a]
  {
    var r0 := Registry([a, b], true, page);
    assert NoDuplicates(r0.instances);
    assert IndexOf(r0.instances, a) == 0;
    ReinitializeMoves(r0, a, controls);
    var r1 := Reinitialize(r0, a, controls);
    assert r1.instances == [b, a];
    assert NoDuplicates(r1.instances);
    assert IndexOf(r1.instances, a) == 1;
    ReinitializeMoves(r1, a, controls);
    var r2 := Reinitialize(r1, a, controls);
    assert |r2.instances| == 2;
    assert ForEachLive(r2, 2, 2, controls).1 == [];
    ForEachLiveCalls(r1, 1, 2, controls);
    ForEachLiveCalls(r0, 0, 2, controls);
  }

  /** Reinitialising a registered instance moves it to the end of a list without duplicates. */
  lemma ReinitializeMoves(r: Registry, x: InstanceId, controls: seq<PageElement>)
    requires NoDuplicates(r.instances) && x in r.instances
    ensures var i := IndexOf(r.instances, x);
            Reinitialize(r, x, controls).instances == r.instances[..i] + r.instances[i + 1..] + [x]
  {
    SpliceOut(r.instances, IndexOf(r.instances, x));
  }

  /** One step of the live loop: the instance now at position `k` is called, then the rest of the loop runs. */
  lemma ForEachLiveCalls(r: Registry, k: nat, len: nat, controls: seq<PageElement>)
    requires k < len && k < |r.instances|
    ensures ForEachLive(r, k, len, controls).1 ==
            [r.instances[k]] + ForEachLive(Reinitialize(r, r.instances[k], controls), k + 1, len, controls).1
  {
  }

  /**
   * The firing as intended: every instance registered when the timer fires
   * is reinitialised once, in registration order.
   */
  function ReinitializeEach(r: Registry, xs: seq<InstanceId>, controls: seq<PageElement>): (Registry, seq<InstanceId>)
    decreases |xs|
  {
    if |xs| == 0 then (r, [])
    else
      var (r', calls) := ReinitializeEach(Reinitialize(r, xs[0], controls), xs[1..], controls);
      (r', [xs[0]] + calls)
  }

  function Fire(r: Registry, controls: seq<PageElement>): (Registry, seq<InstanceId>) {
    ReinitializeEach(r, r.instances, controls)
  }

  /** The intended firing calls exactly the instances it is given, in order. */
  lemma {:induction false} ReinitializeEachCalls(r: Registry, xs: seq<InstanceId>, controls: seq<PageElement>)
    ensures ReinitializeEach(r, xs, controls).1 == xs
    decreases |xs|
  {
    if |xs| > 0 {
      ReinitializeEachCalls(Reinitialize(r, xs[0], controls), xs[1..], controls);
    }
  }

  /** Reinitialising registered instances keeps the registry valid and the same instances registered. */
  lemma {:induction false} ReinitializeEachKeepsInstances(r: Registry, xs: seq<InstanceId>, controls: seq<PageElement>)
    requires Valid(r)
    requires forall i :: 0 <= i < |xs| ==> xs[i] in r.instances
    ensures Valid(ReinitializeEach(r, xs, controls).0)
    ensures multiset(ReinitializeEach(r, xs, controls).0.instances) == multiset(r.instances)
    decreases |xs|
  {
    if |xs| > 0 {
      var r1 := Reinitialize(r, xs[0], controls);
      ReinitializeRotates(r, xs[0], controls);
      forall i | 0 <= i < |xs[1..]|
        ensures xs[1..][i] in r1.instances
      {
        assert xs[1..][i] in multiset(r.instances);
      }
      ReinitializeEachKeepsInstances(r1, xs[1..], controls);
    }
  }

  /** Firing calls every registered instance exactly once and keeps the same instances registered. */
  lemma FireReinitializesEach(r: Registry, controls: seq<PageElement>)
    requires Valid(r)
    ensures Fire(r, controls).1 == r.instances
    ensures Valid(Fire(r, controls).0)
    ensures multiset(Fire(r, controls).0.instances) == multiset(r.instances)
  {
    ReinitializeEachCalls(r, r.instances, controls);
    ReinitializeEachKeepsInstances(r, r.instances, controls);
  }

  /**
   * With the single downloader the extension creates, both readings agree:
   * one call, the list is that instance again, and the page holds the other
   * elements followed by the freshly inserted controls.
   */
  lemma SingleInstanceFire(a: InstanceId, page: seq<PageElement>, controls: seq<PageElement>)
    ensures FireAsWritten(Registry([a], true, page), controls).1 == [a]
    ensures FireAsWritten(Registry([a], true, page), controls) == Fire(Registry([a], true, page), controls)
    ensures FireAsWritten(Registry([a], true, page), controls).0 == Registry([a], true, RemoveElements(page, ButtonClass) + controls)
  {
    var r0 := Registry([a], true, page);
    var r1 := Reinitialize(r0, a, controls);
    ReinitializeRotates(r0, a, controls);
    assert r1.instances == [a];
    assert r1.page == RemoveElements(page, ButtonClass) + controls;
    assert ForEachLive(r1, 1, 1, controls) == (r1, []);
    assert ReinitializeEach(r1, [], controls) == (r1, []);
  }

  // ---------------------------------------------------------------------------
  // The reconciler: the registry and the debounce timer driven by page events.
  // ---------------------------------------------------------------------------

  /**
   * The registry, the debounce timer, every reinitialise call made so far in
   * order, and the controls an init would insert into the posts now on the page.
   */
  datatype Reconciler = Reconciler(reg: Registry, timer: Debouncer, calls: seq<InstanceId>, controls: seq<PageElement>)

  /**
   * What can happen: an instance is created or removed, time passes, or the
   * page changes, which also decides the controls a later init inserts.
   */
  datatype Event =
    | Created(x: InstanceId)
    | Removed(x: InstanceId, cls: string)
    | Elapsed(t: int)
    | Changed(e: Delivery, controls: seq<PageElement>)

  /** The timer is due by time `t`. */
  predicate Due(d: Debouncer, t: int) {
    d.pending.Some? && d.pending.value <= t
  }

  /**
   * Time passes to `t`: a due timer fires once, and its callback runs the live
   * `forEach` over the registry as it is at that moment, observer or not.
   */
  function Elapse(c: Reconciler, t: int): (c': Reconciler)
    ensures c'.timer == AdvanceTo(c.timer, t) && c'.timer.pending.None? == (c.timer.pending.None? || Due(c.timer, t))
    ensures Due(c.timer, t) ==> c'.reg == FireAsWritten(c.reg, c.controls).0 && c'.calls == c.calls + FireAsWritten(c.reg, c.controls).1
    ensures !Due(c.timer, t) ==> c'.reg == c.reg && c'.calls == c.calls
    ensures c'.controls == c.controls
  {
    if Due(c.timer, t) then
      var (r', made) := FireAsWritten(c.reg, c.controls);
      Reconciler(r', AdvanceTo(c.timer, t), c.calls + made, c.controls)
    else c
  }

  /**
   * The page changes: time passes to the delivery first; the batch reaches
   * handleMutation only while an observer is connected, and is then debounced
   * as Deliver says; from now on an init inserts `controls`.
   */
  function Observe(c: Reconciler, e: Delivery, controls: seq<PageElement>): (c': Reconciler)
    ensures c'.reg == Elapse(c, e.at).reg && c'.calls == Elapse(c, e.at).calls
    ensures Elapse(c, e.at).reg.observing ==> c'.timer == Deliver(c.timer, e)
    ensures !Elapse(c, e.at).reg.observing ==> c'.timer == AdvanceTo(c.timer, e.at)
    ensures c'.controls == controls
  {
    var c1 := Elapse(c, e.at).(controls := controls);
    if c1.reg.observing && !IsOwnMutation(e.batch) then c1.(timer := c1.timer.(pending := Some(e.at + DebounceMs)))
    else c1
  }

  /** One event. remove never clears the pending timer, so a removal leaves it running. */
  function Step(c: Reconciler, ev: Event): Reconciler {
    match ev
    case Created(x) => c.(reg := Init(c.reg, x, c.controls))
    case Removed(x, cls) => c.(reg := Remove(c.reg, x, cls))
    case Elapsed(t) => Elapse(c, t)
    case Changed(e, controls) => Observe(c, e, controls)
  }

  function Run(c: Reconciler, evs: seq<Event>): Reconciler
    decreases |evs|
  {
    if |evs| == 0 then c else Run(Step(c, evs[0]), evs[1..])
  }

  /** No event in the sequence creates an instance. */
  predicate NoCreation(evs: seq<Event>) {
    forall i :: 0 <= i < |evs| ==> !evs[i].Created?
  }

  /** Nobody registered and no observer connected. */
  predicate Idle(r: Registry) {
    r.instances == [] && !r.observing
  }

  /**
   * An idle registry stays idle until an instance is created, and no event
   * until then calls reinitialise: page changes go unobserved, and a timer
   * left pending fires over an empty list.
   */
  lemma {:induction false} IdleStaysIdle(c: Reconciler, evs: seq<Event>)
    requires Idle(c.reg)
    requires NoCreation(evs)
    ensures Idle(Run(c, evs).reg)
    ensures Run(c, evs).calls == c.calls
    decreases |evs|
  {
    if |evs| > 0 {
      var c1 := Step(c, evs[0]);
      assert !evs[0].Created?;
      assert FireAsWritten(c.reg, c.controls) == (c.reg, []);
      assert Idle(c1.reg) && c1.calls == c.calls;
      assert NoCreation(evs[1..]) by {
        forall i | 0 <= i < |evs[1..]|
          ensures !evs[1..][i].Created?
        {
          assert evs[1..][i] == evs[i + 1];
        }
      }
      IdleStaysIdle(c1, evs[1..]);
    }
  }

  /**
   * Once the last instance is removed, nothing reinitialises again until an
   * instance is created: whatever page changes and timers follow, the
   * registry stays empty, the observer disconnected, and no call is made.
   */
  lemma LastRemovalStopsReinitialising(r: Registry, x: InstanceId, cls: string, timer: Debouncer,
                                       calls: seq<InstanceId>, controls: seq<PageElement>, evs: seq<Event>)
    requires Valid(r) && r.instances == [x]
    requires NoCreation(evs)
    ensures Idle(Run(Step(Reconciler(r, timer, calls, controls), Removed(x, cls)), evs).reg)
    ensures Run(Step(Reconciler(r, timer, calls, controls), Removed(x, cls)), evs).calls == calls
  {
    var c1 := Step(Reconciler(r, timer, calls, controls), Removed(x, cls));
    assert IndexOf(r.instances, x) == 0;
    assert c1.reg.instances == [];
    IdleStaysIdle(c1, evs);
  }

  /**
   * remove does not clear the pending timer: a timer set before the last
   * instance went away still fires at its deadline, over an empty list, so it
   * calls nobody.
   */
  lemma StaleTimerFiresOverEmptyList(r: Registry, x: InstanceId, cls: string, due: int, calls: seq<InstanceId>,
                                     controls: seq<PageElement>)
    requires Valid(r) && r.instances == [x]
    ensures var c := Run(Reconciler(r, Debouncer(Some(due), []), calls, controls), [Removed(x, cls), Elapsed(due)]);
            c.timer == Debouncer(None, [due]) && c.calls == calls && Idle(c.reg)
  {
    var c1 := Step(Reconciler(r, Debouncer(Some(due), []), calls, controls), Removed(x, cls));
    assert IndexOf(r.instances, x) == 0;
    assert Idle(c1.reg);
    assert FireAsWritten(c1.reg, controls) == (c1.reg, []);
    assert Run(c1, [Elapsed(due)]) == Step(c1, Elapsed(due));
  }

  /** The live `forEach` over a non-empty list ends with an observer connected, since each call ends with init. */
  lemma {:induction false} ForEachLiveObserves(r: Registry, k: nat, len: nat, controls: seq<PageElement>)
    requires r.observing
    ensures ForEachLive(r, k, len, controls).0.observing
    decreases len - k
  {
    if k < len && k < |r.instances| {
      ForEachLiveObserves(Reinitialize(r, r.instances[k], controls), k + 1, len, controls);
    }
  }

  /** While an observer is connected, a page change is debounced exactly as Deliver says, even when the timer fires first. */
  lemma ObservedChangeDebounced(c: Reconciler, e: Delivery, controls: seq<PageElement>)
    requires c.reg.observing
    ensures Step(c, Changed(e, controls)).timer == Deliver(c.timer, e)
  {
    ForEachLiveObserves(c.reg, 0, |c.reg.instances|, c.controls);
  }

  /**
   * With the single downloader the extension creates, a change the extension
   * did not make reinitialises it once, one second later, leaves it the only
   * instance, and puts the controls for the posts the change left in place of
   * the old ones.
   */
  lemma SingleInstanceReconciled(x: InstanceId, page: seq<PageElement>, calls: seq<InstanceId>, before: seq<PageElement>,
                                 e: Delivery, controls: seq<PageElement>, later: int)
    requires !IsOwnMutation(e.batch)
    requires later >= e.at + DebounceMs
    ensures var c := Run(Reconciler(Registry([x], true, page), Debouncer(None, []), calls, before),
                         [Changed(e, controls), Elapsed(later)]);
            && c.calls == calls + [x]
            && c.reg == Registry([x], true, RemoveElements(page, ButtonClass) + controls)
            && c.timer == Debouncer(None, [e.at + DebounceMs])
  {
    var c0 := Reconciler(Registry([x], true, page), Debouncer(None, []), calls, before);
    var c1 := Step(c0, Changed(e, controls));
    assert c1 == c0.(timer := Debouncer(Some(e.at + DebounceMs), []), controls := controls);
    SingleInstanceFire(x, page, controls);
    assert Run(c0, [Changed(e, controls), Elapsed(later)]) == Run(c1, [Elapsed(later)]);
    assert Run(c1, [Elapsed(later)]) == Step(c1, Elapsed(later));
  }

  // ---------------------------------------------------------------------------
  // getAccountName (lines 114-123).
  // ---------------------------------------------------------------------------

  const NoAccountName := "no_account_found"

  /** The account element's text when the selector finds one; reading a missing element throws, which yields the marker. */
  function GetAccountName(found: Option<string>): (r: string)
    ensures found.Some? ==> r == found.value
    ensures found.None? ==> r == NoAccountName
  {
    found.GetOr(NoAccountName)
  }
}

=== FILE: text.dfy ===
/**
 * String helpers shared by the model: prefix and substring tests (JavaScript's
 * `startsWith` / `includes`) and global literal replacement (`replace(/pat/g, rep)`).
 */
module Text {

  predicate StartsWith(s: string, p: string) {
    |p| <= |s| && s[..|p|] == p
  }

  /** `s.includes(w)`: some suffix of `s` starts with `w`. */
  predicate Contains(s: string, w: string)
    decreases |s|
  {
    StartsWith(s, w) || (|s| > 0 && Contains(s[1..], w))
  }

  /**
   * `s.replace(/pat/g, rep)` for a literal, non-empty pattern: occurrences are
   * found left to right and do not overlap.
   */
  function ReplaceAll(s: string, pat: string, rep: string): (r: string)
    requires |pat| > 0
    ensures !Contains(s, pat) ==> r == s
    ensures |rep| <= |pat| ==> |r| <= |s|
    ensures |rep| >= 1 && |s| > 0 ==> |r| > 0
    decreases |s|
  {
    if |s| == 0 then []
    else if StartsWith(s, pat) then rep + ReplaceAll(s[|pat|..], pat, rep)
    else [s[0]] + ReplaceAll(s[1..], pat, rep)
  }

  /** A word that differs from the pattern in its second character, and does not contain the pattern's first character after its first, is copied unchanged. */
  lemma ReplaceAllSkipsMismatch(x: string, y: string, pat: string, rep: string)
    requires |pat| > 1 && |x| > 1
    requires x[1] != pat[1] && pat[0] !in x[1..]
    ensures ReplaceAll(x + y, pat, rep) == x + ReplaceAll(y, pat, rep)
  {
    var s := x + y;
    assert !StartsWith(s, pat) by {
      if |pat| <= |s| {
        assert s[..|pat|][1] == x[1];
      }
    }
    assert ReplaceAll(s, pat, rep) == [s[0]] + ReplaceAll(s[1..], pat, rep);
    assert s[1..] == x[1..] + y;
    ReplaceAllSkips(x[1..], y, pat, rep);
    assert [x[0]] + x[1..] == x;
  }

  /** A prefix free of the pattern's first character is copied unchanged. */
  lemma {:induction false} ReplaceAllSkips(x: string, y: string, pat: string, rep: string)
    requires |pat| > 0
    requires pat[0] !in x
    ensures ReplaceAll(x + y, pat, rep) == x + ReplaceAll(y, pat, rep)
    decreases |x|
  {
    if |x| > 0 {
      var s := x + y;
      assert s[0] == x[0];
      assert !StartsWith(s, pat);
      assert s[1..] == x[1..] + y;
      ReplaceAllSkips(x[1..], y, pat, rep);
      assert [x[0]] + x[1..] == x;
    } else {
      assert x + y == y;
    }
  }

  /** A string without the pattern's first character contains no occurrence of it. */
  lemma {:induction false} NoFirstCharNoMatch(s: string, w: string)
    requires |w| > 0
    requires w[0] !in s
    ensures !Contains(s, w)
    decreases |s|
  {
    if |s| > 0 {
      NoFirstCharNoMatch(s[1..], w);
    }
  }

  lemma {:induction false} ContainsAppend(b: string, c: string, w: string)
    requires Contains(b, w)
    ensures Contains(b + c, w)
    decreases |b|
  {
    if StartsWith(b, w) {
      assert (b + c)[..|w|] == b[..|w|];
    } else {
      ContainsAppend(b[1..], c, w);
      assert (b + c)[1..] == b[1..] + c;
    }
  }

  lemma {:induction false} ContainsPrepend(a: string, b: string, w: string)
    requires Contains(b, w)
    ensures Contains(a + b, w)
    decreases |a|
  {
    if |a| == 0 {
      assert a + b == b;
    } else {
      ContainsPrepend(a[1..], b, w);
      assert (a + b)[1..] == a[1..] + b;
    }
  }

  /** `includes` sees through surrounding text: a substring of a part is a substring of the whole. */
  lemma ContainsInside(a: string, b: string, c: string, w: string)
    requires Contains(b, w)
    ensures Contains(a + b + c, w)
  {
    ContainsAppend(b, c, w);
    ContainsPrepend(a, b + c, w);
    assert a + b + c == a + (b + c);
  }

  lemma StartsWithContains(s: string, w: string)
    requires StartsWith(s, w)
    ensures Contains(s, w)
  {
  }

  // ---------------------------------------------------------------------------
  // Decimal text of a natural number (template-literal interpolation of an integer).
  // ---------------------------------------------------------------------------

  predicate IsDigit(c: char) {
    '0' <= c <= '9'
  }

  /** The decimal digits of `n`, most significant first, without leading zeros. */
  function DecimalText(n: nat): (r: string)
    ensures |r| > 0
    ensures forall i :: 0 <= i < |r| ==> IsDigit(r[i])
    ensures |r| > 1 ==> r[0] != '0'
    decreases n
  {
    if n < 10 then [('0' as int + n) as char]
    else DecimalText(n / 10) + [('0' as int + n % 10) as char]
  }

  /** The number a string of decimal digits denotes. */
  function DecimalValue(s: string): nat
    requires forall i :: 0 <= i < |s| ==> IsDigit(s[i])
    decreases |s|
  {
    if |s| == 0 then 0
    else
      assert IsDigit(s[|s| - 1]);
      10 * DecimalValue(s[..|s| - 1]) + (s[|s| - 1] as int - '0' as int)
  }

  /** Reading the digits back gives the number. */
  lemma {:induction false} DecimalRoundTrip(n: nat)
    ensures DecimalValue(DecimalText(n)) == n
    decreases n
  {
    var r := DecimalText(n);
    if n >= 10 {
      DecimalRoundTrip(n / 10);
      assert r[..|r| - 1] == DecimalText(n / 10);
    }
  }

  /** Different numbers have different decimal texts. */
  lemma DecimalTextInjective(m: nat, n: nat)
    requires DecimalText(m) == DecimalText(n)
    ensures m == n
  {
    DecimalRoundTrip(m);
    DecimalRoundTrip(n);
  }

  // ---------------------------------------------------------------------------
  // Splitting at a separator character (`split(c)[0]` and `split(c).pop()`).
  // ---------------------------------------------------------------------------

  /** `s.split(c)[0]`: the text before the first `c`, or all of `s`. */
  function BeforeFirst(s: string, c: char): (r: string)
    ensures StartsWith(s, r)
    ensures c !in r
    ensures |r| < |s| ==> s[|r|] == c
    decreases |s|
  {
    if |s| == 0 || s[0] == c then [] else [s[0]] + BeforeFirst(s[1..], c)
  }

  /**
   * JavaScript's `length` of a text: its UTF-16 code units, one for a
   * character of the Basic Multilingual Plane and two (a surrogate pair) for
   * any other.
   */
  function Utf16Length(s: string): (n: nat)
    ensures |s| <= n <= 2 * |s|
    decreases |s|
  {
    if |s| == 0 then 0 else (if s[0] as int > 0xFFFF then 2 else 1) + Utf16Length(s[1..])
  }

  /** A text made only of characters outside the Basic Multilingual Plane has two code units per character. */
  lemma {:induction false} Utf16LengthAstral(s: string)
    requires forall i :: 0 <= i < |s| ==> s[i] as int > 0xFFFF
    ensures Utf16Length(s) == 2 * |s|
    decreases |s|
  {
    if |s| > 0 {
      Utf16LengthAstral(s[1..]);
    }
  }

  /** `s.split(c).pop()`: the text after the last `c`, or all of `s`. */
  function AfterLast(s: string, c: char): (r: string)
    ensures |r| <= |s| && r == s[|s| - |r|..]
    ensures c !in r
    ensures |r| < |s| ==> s[|s| - |r| - 1] == c
    decreases |s|
  {
    if |s| == 0 || s[|s| - 1] == c then [] else AfterLast(s[..|s| - 1], c) + [s[|s| - 1]]
  }

  /** Joining with a separator that the last part lacks gives that part back. */
  lemma {:induction false} AfterLastOfJoin(a: string, c: char, b: string)
    requires c !in b
    ensures AfterLast(a + [c] + b, c) == b
    decreases |b|
  {
    var s := a + [c] + b;
    if |b| > 0 {
      var b' := b[..|b| - 1];
      assert s[..|s| - 1] == a + [c] + b';
      AfterLastOfJoin(a, c, b');
      assert b == b' + [b[|b| - 1]];
    } else {
      assert s[|s| - 1] == c;
    }
  }
}

=== FILE: wrappers.dfy ===
/** The Option type used across the model in place of the source's `null`/`undefined`. */
module Wrappers {

  datatype Option<+T> = None | Some(value: T) {

    /** Returns the value held in Some, or `default` when None */
    function GetOr(default: T): T {
      match this
      case Some(v) => v
      case None => default
    }
  }
}
